=== FILE: README.md ===
# Tiny shell parser and job list, cache-lab transposes: a Dafny model

This project models two parts of a systems-programming lab repository,
and proves properties of the model.

- **The tiny shell (`tsh.c`).**
  - **The command-line parser `parseline`.** Its walk over the line (strspn,
    strcspn, strchr) becomes `Lexer.Lex`, a function from the line to the
    lexemes it meets: `<`, `>`, a word (plain, or quoted with the quotes
    dropped) or a quote that is never closed. Which characters start a
    redirection or a quoted token depends only on the text, never on the
    parsing state. So the parsing state (the ST_INFILE and ST_OUTFILE bits) is
    folded over those lexemes by `CommandLine.Run`. `CommandLine.Finish` then
    adds the end-of-line checks, the builtin classification of `argv[0]` and
    the removal of a trailing `&` argument. The -1, 0 or 1 return value is
    `CommandLine.ReturnCode` of the result.
  - **The job list.** It is a sequence of `(pid, jid, state, cmdline)` slots
    plus the `nextjid` counter (module `Jobs`). Every helper is a scan for
    the first slot that matches a key. `change_job_state` calls `exit(1)`
    when pid2jid of its pid is 0. `change_job_state_jid` calls it on job id 0
    only; an absent nonzero job id returns normally. The model returns
    `None` where the shell exits.
  - **Job ids.** Module `JobIds` follows job ids through sequences of
    `addjob` and `deletejob` calls. It holds the one defect found (see
    Findings).
- **The matrix transposes (`trans.c`).** `is_transpose`, the three branches
  of `transpose_submit` and `trans_1` are methods on `array2<int>`. A is
  N×M and B is M×N. Each method is proved to leave B equal to the transpose
  of A. A is not in any `modifies` clause, so it is unchanged.
  - The rows of blocks hold some elements back and write them after the
    row's loop. These rows are separate methods whose contracts say exactly
    which cells of B they write.
  - The 32- and 64-column branches of `transpose_submit` bound A's row index
    by M and its column index by N. They stay in bounds only for square
    matrices, so `TransposeSubmit` requires `N == M` in those branches.
  - `trans_1` bounds rows by N and columns by M, so it only needs N to be a
    multiple of the block size.
  - The C code states only `M > 0` and `N > 0`.

Three behaviours of parseline worth noting:

- A second `<` (or `>`) that arrives while the first still waits for its file
  name is accepted. `< < f` reads like `< f` (`CommandLine.RepeatedOperator`).
- The background flag is set when the last recorded argument starts with `&`,
  quoted or not, and that argument is removed (`CommandLine.LastArgument`;
  `CommandLine.QuotedAmpersand` shows that `'&'` and `&` parse alike). So
  `ls &foo` runs `ls` in the background (`CommandLine.AmpersandWord`).
- A blank line parses with no arguments and return value 1. Its builtin
  field is left unset by the code and is `NoBuiltin` in the model. A line
  holding only `&` also ends with no arguments and return value 1, but there
  the code classifies argv[0] = "&" as BUILTIN_NONE before removing it.

Files: `wrappers.dfy` (Option), `lexer.dfy` (module Lexer), `parser.dfy`
(module CommandLine), `jobs.dfy` (module Jobs), `job_ids.dfy` (module JobIds),
`transpose.dfy` (module Transpose).

## Model

| member | source | states |
|---|---|---|
| `Lexer.SkipDelims` | tsh-lab/tshlab-handout/tsh.c:462 | strspn over " \t\r\n": what remains is a suffix of the line that starts with a non-delimiter, and everything skipped was a delimiter |
| `Lexer.WordLength` | tsh-lab/tshlab-handout/tsh.c:491 | strcspn: a plain token runs exactly up to the first delimiter or the end of the line |
| `Lexer.IndexOf` | tsh-lab/tshlab-handout/tsh.c:488 | strchr: the first position holding the quote, and none exactly when the quote does not occur |
| `Lexer.NextTokenKind` | tsh-lab/tshlab-handout/tsh.c:464-502 | the token parseline finds at a token start: a redirection exactly when it starts with `<` or `>`; an unmatched quote exactly when it starts with a quote that does not occur again, naming that quote; a quoted word never contains its quote, and a plain word holds no delimiter |
| `Lexer.LexAppend` | tsh-lab/tshlab-handout/tsh.c:460-525 | when the first part has no open quote, the tokens of two parts joined by a space are the tokens of each part, in order |
| `Lexer.QuotedToken` | tsh-lab/tshlab-handout/tsh.c:485-502 | a token opened by a quote is one argument: the text up to the next identical quote, white space kept and quotes dropped; scanning resumes right after the closing quote |
| `Lexer.UnclosedToken` | tsh-lab/tshlab-handout/tsh.c:494-499 | a quote with no matching quote after it ends the scan as an unmatched quote |
| `Lexer.LexRender` | tsh-lab/tshlab-handout/tsh.c:485-502 | a token written bare, or quoted with a quote it does not contain, reads back as exactly that token |
| `Lexer.LexUnwords` | tsh-lab/tshlab-handout/tsh.c:460-525 | tokens written one after the other with single spaces read back in the same order |
| `Lexer.LexBlank` | tsh-lab/tshlab-handout/tsh.c:460-463 | a line has no tokens exactly when it consists of delimiters only |
| `CommandLine.Step` | tsh-lab/tshlab-handout/tsh.c:459-525 | one iteration of the loop: once argv is full or the line has failed nothing changes, and the argument-count bound is kept |
| `CommandLine.Consume` | tsh-lab/tshlab-handout/tsh.c:465-525 | one token while scanning fails exactly on an operator whose file is already recorded, an unmatched quote, or a word while both operators wait; a word clears the parsing state; only a word with nothing pending adds an argument, appended after the earlier ones; the loop stops on a full argv only after a word |
| `CommandLine.Finish` | tsh-lab/tshlab-handout/tsh.c:527-554 | after the loop the result is malformed exactly when the scan failed (with its error) or a redirection still waits for its file (missing file name); otherwise the files are kept, no arguments gives a background result, and else the background flag is whether the last argument starts with `&`, which is then dropped and otherwise kept |
| `CommandLine.Run` | tsh-lab/tshlab-handout/tsh.c:519-522 | the argument count stays below MAXARGS-1 while scanning and is exactly MAXARGS-1 once parseline stops on a full argv; a stopped or failed scan ignores the rest of the line |
| `CommandLine.RunAppend` | tsh-lab/tshlab-handout/tsh.c:460-525 | scanning a line in two parts is scanning the second part from the state the first part left |
| `CommandLine.Classify` | tsh-lab/tshlab-handout/tsh.c:538-548 | the builtin is quit, jobs, bg or fg exactly when argv[0] equals that word |
| `CommandLine.Parse` | tsh-lab/tshlab-handout/tsh.c:522-554 | in every successful parse argc is at most MAXARGS-1 and below it when a background `&` was removed, so argv[argc] is in bounds; no arguments left means a background result with no builtin; otherwise the builtin is the one argv[0] names |
| `CommandLine.ParseLine` | tsh-lab/tshlab-handout/tsh.c:445-448 | a NULL command line, and only a NULL one, is malformed as "command line is NULL" |
| `CommandLine.RedirectionTwice` | tsh-lab/tshlab-handout/tsh.c:466-483 | a `<` after an input file was recorded, or a `>` after an output file was recorded, makes the line malformed whatever follows |
| `CommandLine.BothRedirectionsOneFile` | tsh-lab/tshlab-handout/tsh.c:505-518 | after any line that leaves both a `<` and a `>` waiting for a file name (parsing state 3), however the operators were spelled, the next word makes the line malformed |
| `CommandLine.LessThenGreater` | tsh-lab/tshlab-handout/tsh.c:505-518 | `< >` followed by a file name, after any line with no file recorded yet, makes the line malformed |
| `CommandLine.GreaterThenLess` | tsh-lab/tshlab-handout/tsh.c:505-518 | `> <` followed by a file name, after any line with no file recorded yet, makes the line malformed |
| `CommandLine.RedirectionWithoutFile` | tsh-lab/tshlab-handout/tsh.c:527-530 | a redirection operator followed only by delimiters leaves the line malformed for want of a file name |
| `CommandLine.QuoteNeverClosed` | tsh-lab/tshlab-handout/tsh.c:494-499 | a quote that is never closed makes the line malformed, naming that quote |
| `CommandLine.RepeatedOperator` | tsh-lab/tshlab-handout/tsh.c:466-483 | repeating an operator that still waits for its file name changes nothing |
| `CommandLine.QuotedAmpersand` | tsh-lab/tshlab-handout/tsh.c:551-552 | a quoted `'&'` as the last argument asks for the background just as a bare `&` does |
| `CommandLine.LastArgument` | tsh-lab/tshlab-handout/tsh.c:538-554 | after any line still scanning with no redirection pending, one more argument, bare or quoted, gives a parse whose background flag is whether that argument starts with `&`; such an argument is dropped from argv, any other is kept as the last argument; the files are kept, the builtin is read from argv[0] before the drop, and the return value is 1 exactly when the flag is set |
| `CommandLine.AmpersandWord` | tsh-lab/tshlab-handout/tsh.c:551-552 | the line `ls &foo` parses to argv `ls` in the background: only the first character of the last argument is tested, and the whole argument is dropped |
| `CommandLine.BlankLine` | tsh-lab/tshlab-handout/tsh.c:533-536 | a line of delimiters only gives no arguments, no files and return value 1 |
| `CommandLine.ParseCommandText` | tsh-lab/tshlab-handout/tsh.c:431-555 | a command `cmd [arg...] [< in] [> out] [&]` (its last argument may start with `&` only when the `&` follows) written out with single spaces parses back to the same arguments, files and background flag, with the builtin named by its first argument, and returns 1 exactly when it has the `&` |
| `CommandLine.ParsePrintParse` | tsh-lab/tshlab-handout/tsh.c:431-555 | the other direction: any line that parses, with its arguments and files written back out, parses to the same result, builtin and background flag included, whenever the parsed command fits; it always fits when the scan did not fill argv or when there are no redirections |
| `Jobs.Find` | tsh-lab/tshlab-handout/tsh.c:741-744 | the shared scan: some slot matches exactly when a result is returned, and the result is the first matching slot |
| `Jobs.InitJobs` | tsh-lab/tshlab-handout/tsh.c:648-663 | initjobs gives MAXJOBS slots, each cleared as clearjob does, and leaves nextjid alone |
| `Jobs.MaxJid` | tsh-lab/tshlab-handout/tsh.c:666-675 | maxjid is at least 0, at least every slot's job id, and when positive it is some slot's job id |
| `Jobs.AddJob` | tsh-lab/tshlab-handout/tsh.c:678-702 | addjob fails, leaving the table unchanged, exactly when the pid is below 1 or no slot is empty; otherwise only the first empty slot changes, to (pid, old nextjid, state, cmdline), and nextjid increments, wrapping to 1 once it passes MAXJOBS |
| `Jobs.DeleteJob` | tsh-lab/tshlab-handout/tsh.c:705-721 | deletejob fails, leaving the table unchanged, exactly when the pid is below 1 or in no slot; otherwise only the first slot with the pid changes, to a cleared slot, and nextjid becomes maxjid of the resulting table plus one |
| `Jobs.FgPid` | tsh-lab/tshlab-handout/tsh.c:724-732 | the pid of the first slot in the FG state, or 0 when there is none |
| `Jobs.GetJobPid` | tsh-lab/tshlab-handout/tsh.c:735-745 | NULL for a pid below 1 or absent; otherwise the first slot with that pid |
| `Jobs.GetJobJid` | tsh-lab/tshlab-handout/tsh.c:748-758 | NULL for a job id below 1 or absent; otherwise the first slot with that job id |
| `Jobs.Pid2Jid` | tsh-lab/tshlab-handout/tsh.c:761-773 | 0 for a pid below 1 or absent; otherwise the job id of the first slot with that pid |
| `Jobs.Jid2Pid` | tsh-lab/tshlab-handout/tsh.c:1012-1026 | 0 for an absent job id; otherwise the pid of the first slot with it; no guard on the key |
| `Jobs.SetStateOfJid` | tsh-lab/tshlab-handout/tsh.c:969-975 | the loop shared by both state changers: only the first slot with the job id takes the new state |
| `Jobs.ChangeJobState` | tsh-lab/tshlab-handout/tsh.c:959-979 | the shell exits exactly when pid2jid(pid) is 0; otherwise only the state of the first slot whose job id is pid2jid(pid) changes, and nextjid is kept |
| `Jobs.ChangeJobStateJid` | tsh-lab/tshlab-handout/tsh.c:985-1006 | the shell exits exactly on job id 0; an absent job id leaves the table unchanged; otherwise only the state of the first slot with that job id changes |
| `Jobs.AddJobThenLookup` | tsh-lab/tshlab-handout/tsh.c:683-693 | after adding a new pid, getjobpid finds the new job and pid2jid gives the old nextjid |
| `Jobs.DeleteJobThenLookup` | tsh-lab/tshlab-handout/tsh.c:710-720 | after deleting a pid held by one slot only, getjobpid and pid2jid no longer find it |
| `Jobs.InitJobsEmpty` | tsh-lab/tshlab-handout/tsh.c:657-663 | after initjobs, maxjid and fgpid are 0, and getjobpid and getjobjid find nothing |
| `Jobs.FgPidOfOnlyFg` | tsh-lab/tshlab-handout/tsh.c:724-732 | with at most one job in the FG state, fgpid names that job |
| `Jobs.AddJobKeepsOneFg` | tsh-lab/tshlab-handout/tsh.c:678-702 | addjob keeps at most one FG job when it adds a non-FG job, or when no job is in FG |
| `Jobs.DeleteJobKeepsOneFg` | tsh-lab/tshlab-handout/tsh.c:705-721 | deletejob keeps at most one FG job |
| `Jobs.ChangeJobStateKeepsOneFg` | tsh-lab/tshlab-handout/tsh.c:959-979 | a state change that does not exit keeps at most one FG job, provided it does not move a job to FG while any job (the moved one included) is in FG |
| `JobIds.Startup` | tsh-lab/tshlab-handout/tsh.c:61 | the table at startup (nextjid 1, then initjobs) satisfies the job-id invariant |
| `JobIds.AddJobFixed` | tsh-lab/tshlab-handout/tsh.c:678-702 | addjob with nextjid recomputed as deletejob does: the same success and slots as addjob, with nextjid above every job id, namely maxjid of the resulting table plus one |
| `JobIds.AddJobFixedNext` | tsh-lab/tshlab-handout/tsh.c:690-692 | on a consistent table, a successful fixed addjob gives the new job id nextjid and raises nextjid by exactly one, never wrapping it to 1 |
| `JobIds.AddJobFixedAgrees` | tsh-lab/tshlab-handout/tsh.c:690-692 | on a consistent table, before nextjid reaches MAXJOBS, the fixed addjob and addjob agree |
| `JobIds.AddJobFixedConsistent` | tsh-lab/tshlab-handout/tsh.c:678-702 | the fixed addjob keeps the invariant: empty slots cleared, live pids and job ids positive, job ids unique, nextjid one above the largest |
| `JobIds.DeleteJobConsistent` | tsh-lab/tshlab-handout/tsh.c:705-721 | deletejob keeps the job-id invariant |
| `JobIds.ChangeJobStateConsistent` | tsh-lab/tshlab-handout/tsh.c:959-979 | a change_job_state that does not exit keeps the job-id invariant |
| `JobIds.AddJobFixedKeepsPidsUnique` | tsh-lab/tshlab-handout/tsh.c:686-693 | adding a pid not yet present keeps pids unique |
| `JobIds.DeleteJobKeepsPidsUnique` | tsh-lab/tshlab-handout/tsh.c:712-717 | deleting a job keeps pids unique |
| `JobIds.Pid2JidRoundTrip` | tsh-lab/tshlab-handout/tsh.c:761-773 | under the invariant, jid2pid(pid2jid(pid)) is pid for every live pid |
| `JobIds.Jid2PidRoundTrip` | tsh-lab/tshlab-handout/tsh.c:1012-1026 | under the invariant and unique pids, pid2jid(jid2pid(jid)) is jid for every job id in use |
| `JobIds.SameFirstSlot` | tsh-lab/tshlab-handout/tsh.c:761-773 | under the invariant, the first slot holding a live pid is exactly the first slot holding pid2jid of that pid, so a lookup by pid and a lookup by its job id meet the same job |
| `JobIds.ChangeJobStateOfPid` | tsh-lab/tshlab-handout/tsh.c:959-979 | under the invariant, change_job_state changes the state of exactly the slot holding the pid |
| `JobIds.FixedCallsKeepJidsUnique` | tsh-lab/tshlab-handout/tsh.c:678-721 | with the fixed addjob, every sequence of addjob and deletejob calls keeps job ids unique |
| `JobIds.DuplicateJidTrace` | tsh-lab/tshlab-handout/tsh.c:690-692 | a sequence of calls gives two live jobs the same job id, and change_job_state then changes the wrong job; the fixed addjob keeps the same calls unique |
| `Transpose.IsTranspose` | cache-lab/cachelab-handout/trans.c:27-39 | is_transpose returns 0 or 1, and 1 exactly when A[i][j] == B[j][i] for all i < N, j < M |
| `Transpose.TransposeSimple` | cache-lab/cachelab-handout/trans.c:191-203 | the plain double loop leaves B the transpose of A, for any shape |
| `Transpose.DeferDiagonalRow` | cache-lab/cachelab-handout/trans.c:92-111 | one row of an 8×8 (or 4×4) block, with its diagonal element held back and written after the loop, writes the whole row into B's column and touches no other cell |
| `Transpose.DeferThreeRow` | cache-lab/cachelab-handout/trans.c:133-179 | one row of a 4×4 block holding back the diagonal, the (k%4==0, l==0) and the (k==0, l%4==0) element writes the whole row into B's column: the three cases never meet in one row, so the else-if chain loses nothing |
| `Transpose.RowBlock` | cache-lab/cachelab-handout/trans.c:89-111 | one bs×bs block, a row at a time: every cell of the block is transposed into B and every other cell of B keeps its value |
| `Transpose.RowBlocks` | cache-lab/cachelab-handout/trans.c:81-120 | row blocks outer, column blocks inner, with the diagonal held back: B is the transpose of A when both dimensions are multiples of the block |
| `Transpose.ColumnBlocks` | cache-lab/cachelab-handout/trans.c:122-188 | column blocks outer, row blocks inner, three elements held back per row: B is the transpose of A when both dimensions are multiples of 4 |
| `Transpose.TransposeSubmit` | cache-lab/cachelab-handout/trans.c:67-208 | B is the transpose of A on every branch, given N == M for M of 32 or 64 |
| `Transpose.Trans1` | cache-lab/cachelab-handout/trans.c:223-295 | B is the transpose of A on every branch, given N a multiple of the block for M of 32 or 64 |

## Left out

- `main`, `eval` and the signal handlers (fork, exec, waitpid, kill, signal masks, asynchronous delivery): process control outside a pure model.
- `listjobs`, `printjob`, `print_sigint_job`, `print_sigtstp_job`, `usage`, `unix_error`, `app_error` and the system-call wrappers: output formatting and plumbing.
- The error messages parseline and the job helpers print: each message is a constructor of `ParseError` or the `None` of a state change, and the text is not modelled.
- The verbose message and the "Tried to create too many jobs" message of addjob: output only.
- parseline's copy of the line into a static MAXLINE buffer: a line of MAXLINE characters or more is not terminated in that copy, so the model parses the whole string instead; the token record's static storage is not modelled.
- The command line stored in a job slot is an opaque string; the strcpy into a MAXLINE buffer is not modelled.
- The job state is one of the four named states; addjob's `int state` argument accepts other numbers, which the model does not.
- C `int` width: pids, job ids and nextjid are unbounded integers. With the fixed addjob, job ids grow without bound: each successful addjob raises nextjid by one (`JobIds.AddJobFixedNext`), and deleting a job other than the one with the largest job id leaves it unchanged. The overflow of a C `int` nextjid after about 2^31 additions is not modelled. The addjob as written also hands out job ids above MAXJOBS: with job ids 1 to 16 live, deleting job id 1 sets nextjid to 17 (tsh.c:716) and the next addjob hands out 17 (tsh.c:690).
- "At most one job in FG" is a documented assumption: the helpers do not enforce it, and the model proves only that they keep it under the stated conditions.
- `Transpose.RowBlocks` and `Transpose.ColumnBlocks` bound A's rows by N and its columns by M; the 32- and 64-column branches of transpose_submit bound them by M and N (trans.c:85-87, 126-128), the same numbers under their `N == M` precondition.
- `CommandLine.ParseCommandText` and `CommandLine.ParsePrintParse` do not cover a line that fills argv after its redirections: `< in a1 … a127` parses with infile `in`, but written out the `< in` comes after the 127th argument, where parseline has already stopped, so the infile is lost. Such a command does not satisfy `Fits`.
- `Jobs.Pid2Jid`, `Jobs.Jid2Pid` and the lookup inside `Jobs.ChangeJobState` take the job table as an argument, while pid2jid and jid2pid (tsh.c:761-773, 1012-1026) read the global `job_list`; the two agree because every caller passes `job_list`.
- The transposes require A and B to be different arrays; trans.c does not ask for this, but its callers always pass separate arrays, and the in-place case is not modelled.
- Cache hits and misses, the reason for the blocking: the model covers functional correctness only.
- `trans` (it rebinds A to B, so no transpose takes place), `doNothing` and `registerFunctions`: driver glue.

## Findings

| source | as written | input that shows it | evidently intended | confidence | as-written member | corrected member |
|---|---|---|---|---|---|---|
| tsh-lab/tshlab-handout/tsh.c:690-692 | addjob hands out job id nextjid and wraps nextjid to 1 once it passes MAXJOBS, without checking that job id 1 is free | initjobs; addjob pids 100 to 114 (job ids 1 to 15); deletejob 101 (nextjid becomes 16); addjob 200 (job id 16, nextjid wraps to 1); addjob 201 gets job id 1, which pid 100 still holds; change_job_state(201, ST) then stops pid 100's job | live jobs have distinct job ids; with nextjid recomputed as deletejob does, every sequence of calls keeps them distinct (`JobIds.FixedCallsKeepJidsUnique`) | not executed | `JobIds.DuplicateJidTrace` | `JobIds.AddJobFixed` |

=== FILE: job_ids.dfy ===
/**
  Job ids over a sequence of additions and deletions. Job ids are meant to
  name jobs uniquely; the wrap of nextjid to 1 in addjob hands out an id
  that may still be in use. This module shows a sequence of calls that
  gives two live jobs the same job id, and proves that an addjob which
  recomputes nextjid the way deletejob does keeps job ids unique over any
  sequence of calls. Job ids are unbounded integers here: the fixed addjob
  raises nextjid by one on every success, so ids grow past MAXJOBS, and a
  C `int` would overflow after about 2^31 additions.
 */
module JobIds {
  import opened Wrappers
  import opened Jobs

  /** Every live job has a job id of its own. */
  predicate UniqueJids(t: JobTable) {
    forall i, j :: 0 <= i < j < |t.slots| && t.slots[i].pid != 0 && t.slots[j].pid != 0 ==>
      t.slots[i].jid != t.slots[j].jid
  }

  /** Every live job has a pid of its own. */
  predicate UniquePids(t: JobTable) {
    forall i, j :: 0 <= i < j < |t.slots| && t.slots[i].pid != 0 ==> t.slots[i].pid != t.slots[j].pid
  }

  /**
    The job list as the helpers mean it to be: empty slots are cleared,
    live jobs have positive pids and job ids, job ids are unique, and
    nextjid is one more than the largest job id.
   */
  predicate Consistent(t: JobTable) {
    && (forall i :: 0 <= i < |t.slots| && t.slots[i].pid == 0 ==> t.slots[i] == Cleared)
    && (forall i :: 0 <= i < |t.slots| && t.slots[i].pid != 0 ==> t.slots[i].pid >= 1 && t.slots[i].jid >= 1)
    && UniqueJids(t)
    && t.nextjid == MaxJid(t) + 1
  }

  /** addjob with nextjid recomputed from the table, as deletejob does, instead of wrapped to 1. */
  function AddJobFixed(t: JobTable, pid: int, state: JobState, cmdline: string): (r: Update)
    ensures r.ok == AddJob(t, pid, state, cmdline).ok
    ensures r.table.slots == AddJob(t, pid, state, cmdline).table.slots
    ensures r.ok ==> forall i :: 0 <= i < |r.table.slots| ==> r.table.slots[i].jid < r.table.nextjid
    ensures r.ok ==> r.table.nextjid == MaxJid(r.table) + 1
    ensures !r.ok ==> r.table == t
  {
    var u := AddJob(t, pid, state, cmdline);
    if u.ok then Update(true, u.table.(nextjid := MaxJid(u.table) + 1)) else u
  }

  /**
    On a consistent table the fixed addjob hands out nextjid and raises it by
    exactly one, never wrapping: job ids are not bounded by MAXJOBS.
   */
  lemma AddJobFixedNext(t: JobTable, pid: int, state: JobState, cmdline: string)
    requires Consistent(t)
    ensures var r := AddJobFixed(t, pid, state, cmdline);
      r.ok ==> r.table.nextjid == t.nextjid + 1 && exists i :: 0 <= i < |r.table.slots| && r.table.slots[i].pid == pid && r.table.slots[i].jid == t.nextjid
  {
    if AddJob(t, pid, state, cmdline).ok {
      var i := AddJobFixedSlot(t, pid, state, cmdline);
      var job := Job(pid, t.nextjid, state, cmdline);
      MaxJidAfterAdd(t, i, job);
      assert AddJobFixed(t, pid, state, cmdline).table.slots[i] == job;
    }
  }

  /** While nextjid has not reached MAXJOBS, the fixed addjob and the original agree. */
  lemma AddJobFixedAgrees(t: JobTable, pid: int, state: JobState, cmdline: string)
    requires Consistent(t)
    requires t.nextjid < MaxJobs
    ensures AddJobFixed(t, pid, state, cmdline) == AddJob(t, pid, state, cmdline)
  {
    var u := AddJob(t, pid, state, cmdline);
    if u.ok {
      var i :| IsFirst(t.slots, PidIs(0), i) && u.table.slots == t.slots[i := Job(pid, t.nextjid, state, cmdline)];
      MaxJidAfterAdd(t, i, Job(pid, t.nextjid, state, cmdline));
    }
  }

  /** Writing a job with job id nextjid into a slot of a consistent table makes nextjid the largest job id. */
  lemma MaxJidAfterAdd(t: JobTable, i: int, job: Job)
    requires Consistent(t) && 0 <= i < |t.slots| && job.jid == t.nextjid
    ensures MaxJid(t.(slots := t.slots[i := job])) == t.nextjid
  {
    var u := t.(slots := t.slots[i := job]);
    var m := MaxJid(u);
    assert u.slots[i].jid == t.nextjid;
    assert forall k :: 0 <= k < |u.slots| ==> u.slots[k].jid <= t.nextjid;
  }

  lemma AddJobFixedConsistent(t: JobTable, pid: int, state: JobState, cmdline: string)
    requires Consistent(t)
    ensures Consistent(AddJobFixed(t, pid, state, cmdline).table)
  {
    if AddJob(t, pid, state, cmdline).ok {
      var i := AddJobFixedSlot(t, pid, state, cmdline);
      WriteSlotConsistent(t, i, Job(pid, t.nextjid, state, cmdline), AddJobFixed(t, pid, state, cmdline).table);
    }
  }

  /** A successful fixed addjob writes the job into some slot and recomputes nextjid from the result. */
  lemma AddJobFixedSlot(t: JobTable, pid: int, state: JobState, cmdline: string) returns (i: int)
    requires AddJob(t, pid, state, cmdline).ok
    ensures pid >= 1 && 0 <= i < |t.slots|
    ensures var w := t.slots[i := Job(pid, t.nextjid, state, cmdline)];
      AddJobFixed(t, pid, state, cmdline).table == JobTable(w, MaxJidOf(w) + 1)
  {
    i := Find(t.slots, PidIs(0)).value;
  }

  lemma DeleteJobConsistent(t: JobTable, pid: int)
    requires Consistent(t)
    ensures Consistent(DeleteJob(t, pid).table)
  {
    if DeleteJob(t, pid).ok {
      var i := DeleteJobSlot(t, pid);
      WriteSlotConsistent(t, i, Cleared, DeleteJob(t, pid).table);
    }
  }

  /** A successful deletejob clears some slot and recomputes nextjid from the result. */
  lemma DeleteJobSlot(t: JobTable, pid: int) returns (i: int)
    requires DeleteJob(t, pid).ok
    ensures 0 <= i < |t.slots|
    ensures var w := t.slots[i := Cleared]; DeleteJob(t, pid).table == JobTable(w, MaxJidOf(w) + 1)
  {
    i := Find(t.slots, PidIs(pid)).value;
  }

  /**
    Writing a cleared slot, or a live job whose job id is above every other,
    into a consistent table, and recomputing nextjid, keeps the table consistent.
   */
  lemma WriteSlotConsistent(t: JobTable, i: int, job: Job, u: JobTable)
    requires Consistent(t) && 0 <= i < |t.slots|
    requires job.pid == 0 ==> job == Cleared
    requires job.pid != 0 ==> job.pid >= 1 && job.jid == t.nextjid
    requires u == JobTable(t.slots[i := job], MaxJidOf(t.slots[i := job]) + 1)
    ensures Consistent(u)
  {
    WriteSlotUnique(t, i, job);
    WriteSlotShape(t, i, job);
  }

  lemma WriteSlotShape(t: JobTable, i: int, job: Job)
    requires Consistent(t) && 0 <= i < |t.slots|
    requires job.pid == 0 ==> job == Cleared
    requires job.pid != 0 ==> job.pid >= 1 && job.jid == t.nextjid
    ensures var s := t.slots[i := job];
      && (forall k :: 0 <= k < |s| && s[k].pid == 0 ==> s[k] == Cleared)
      && (forall k :: 0 <= k < |s| && s[k].pid != 0 ==> s[k].pid >= 1 && s[k].jid >= 1)
  {
  }

  lemma WriteSlotUnique(t: JobTable, i: int, job: Job)
    requires Consistent(t) && 0 <= i < |t.slots|
    requires job.pid != 0 ==> job.jid == t.nextjid
    ensures UniqueJids(JobTable(t.slots[i := job], 0))
  {
    var s := t.slots[i := job];
    forall a, b | 0 <= a < b < |s| && s[a].pid != 0 && s[b].pid != 0
      ensures s[a].jid != s[b].jid
    {
      if a == i {
        assert t.slots[b].jid <= MaxJid(t);
      } else if b == i {
        assert t.slots[a].jid <= MaxJid(t);
      }
    }
  }

  /** Tables whose slots hold the same pids and job ids, with the same empty slots and nextjid. */
  predicate SameIds(t: JobTable, u: JobTable) {
    && |u.slots| == |t.slots|
    && u.nextjid == t.nextjid
    && forall k :: 0 <= k < |t.slots| ==>
         && u.slots[k].pid == t.slots[k].pid
         && u.slots[k].jid == t.slots[k].jid
         && (t.slots[k].pid == 0 ==> u.slots[k] == t.slots[k])
  }

  lemma SameIdsConsistent(t: JobTable, u: JobTable)
    requires Consistent(t) && SameIds(t, u)
    ensures Consistent(u)
  {
    SameIdsMaxJid(t, u);
  }

  lemma SameIdsMaxJid(t: JobTable, u: JobTable)
    requires SameIds(t, u)
    ensures MaxJid(u) == MaxJid(t)
  {
    assert forall k :: 0 <= k < |u.slots| ==> u.slots[k].jid <= MaxJid(t);
    if MaxJid(t) > 0 {
      var k :| 0 <= k < |t.slots| && t.slots[k].jid == MaxJid(t);
      assert u.slots[k].jid == MaxJid(t);
    }
  }

  /** A state change touches no pid, job id or nextjid, so it keeps the job list consistent. */
  lemma ChangeJobStateConsistent(t: JobTable, pid: int, state: JobState)
    requires Consistent(t)
    ensures ChangeJobState(t, pid, state).Some? ==> Consistent(ChangeJobState(t, pid, state).value)
  {
    if ChangeJobState(t, pid, state).Some? {
      ChangeJobStateSameIds(t, pid, state);
      SameIdsConsistent(t, ChangeJobState(t, pid, state).value);
    }
  }

  /** change_job_state touches only the state of a live job. */
  lemma ChangeJobStateSameIds(t: JobTable, pid: int, state: JobState)
    requires Consistent(t)
    ensures ChangeJobState(t, pid, state).Some? ==> SameIds(t, ChangeJobState(t, pid, state).value)
  {
    if ChangeJobState(t, pid, state).Some? {
      var i := GetJobPid(t, pid).value;
      FirstPidFirstJid(t, pid, i);
      ChangeJobStateWrites(t, pid, state, i);
      SetStateSameIds(t, i, state, ChangeJobState(t, pid, state).value);
    }
  }

  lemma SetStateSameIds(t: JobTable, i: int, state: JobState, u: JobTable)
    requires 0 <= i < |t.slots| && t.slots[i].pid != 0
    requires u == t.(slots := t.slots[i := t.slots[i].(state := state)])
    ensures SameIds(t, u)
  {
  }

  /** When the first slot with the pid is also the first with its job id, change_job_state rewrites that slot's state and nothing else. */
  lemma ChangeJobStateWrites(t: JobTable, pid: int, state: JobState, i: int)
    requires pid >= 1 && IsFirst(t.slots, PidIs(pid), i)
    requires t.slots[i].jid != 0 && IsFirst(t.slots, JidIs(t.slots[i].jid), i)
    ensures ChangeJobState(t, pid, state) == Some(t.(slots := t.slots[i := t.slots[i].(state := state)]))
  {
    var f := Find(t.slots, JidIs(t.slots[i].jid)).value;
    FirstUnique(t.slots, JidIs(t.slots[i].jid), f, i);
  }

  /** In a consistent table, jid2pid undoes pid2jid for every live pid. */
  lemma Pid2JidRoundTrip(t: JobTable, pid: int)
    requires Consistent(t)
    requires pid >= 1 && Has(t.slots, PidIs(pid))
    ensures Pid2Jid(t, pid) >= 1
    ensures Jid2Pid(t, Pid2Jid(t, pid)) == pid
  {
    var i := GetJobPid(t, pid).value;
    FirstPidFirstJid(t, pid, i);
  }

  /** In a consistent table, the first slot with a live pid is also the first slot with that slot's job id. */
  lemma FirstPidFirstJid(t: JobTable, pid: int, i: int)
    requires Consistent(t)
    requires pid >= 1 && IsFirst(t.slots, PidIs(pid), i)
    ensures t.slots[i].jid >= 1
    ensures IsFirst(t.slots, JidIs(t.slots[i].jid), i)
  {
    var jid := t.slots[i].jid;
    forall k | 0 <= k < i
      ensures t.slots[k].jid != jid
    {
      if t.slots[k].pid == 0 {
        assert t.slots[k] == Cleared;
      }
    }
  }

  /** Adding a pid not yet in the table keeps pids unique. */
  lemma AddJobFixedKeepsPidsUnique(t: JobTable, pid: int, state: JobState, cmdline: string)
    requires UniquePids(t) && !Has(t.slots, PidIs(pid))
    ensures UniquePids(AddJobFixed(t, pid, state, cmdline).table)
  {
    var r := AddJobFixed(t, pid, state, cmdline);
    if r.ok {
      var i :| IsFirst(t.slots, PidIs(0), i) && r.table.slots == t.slots[i := Job(pid, t.nextjid, state, cmdline)];
      assert forall k :: 0 <= k < |t.slots| ==> t.slots[k].pid != pid;
    }
  }

  /** Deleting a job keeps pids unique. */
  lemma DeleteJobKeepsPidsUnique(t: JobTable, pid: int)
    requires UniquePids(t)
    ensures UniquePids(DeleteJob(t, pid).table)
  {
    var r := DeleteJob(t, pid);
    if r.ok {
      var i :| IsFirst(t.slots, PidIs(pid), i) && r.table.slots == t.slots[i := Cleared];
    }
  }

  /** In a consistent table whose pids are unique, pid2jid undoes jid2pid for every job id in use. */
  lemma Jid2PidRoundTrip(t: JobTable, jid: int)
    requires Consistent(t) && UniquePids(t)
    requires jid >= 1 && Has(t.slots, JidIs(jid))
    ensures Jid2Pid(t, jid) >= 1
    ensures Pid2Jid(t, Jid2Pid(t, jid)) == jid
  {
    var i := GetJobJid(t, jid).value;
    var pid := t.slots[i].pid;
    assert pid != 0;
    assert IsFirst(t.slots, PidIs(pid), i);
  }

  /** In a consistent table, change_job_state changes exactly the job that has the pid. */
  lemma ChangeJobStateOfPid(t: JobTable, pid: int, state: JobState)
    requires Consistent(t)
    requires pid >= 1 && Has(t.slots, PidIs(pid))
    ensures ChangeJobState(t, pid, state).Some?
    ensures var u := ChangeJobState(t, pid, state).value;
      forall k :: 0 <= k < |t.slots| ==>
        u.slots[k] == if IsFirst(t.slots, PidIs(pid), k) then t.slots[k].(state := state) else t.slots[k]
  {
    var i := GetJobPid(t, pid).value;
    FirstPidFirstJid(t, pid, i);
    ChangeJobStateWrites(t, pid, state, i);
    var u := ChangeJobState(t, pid, state).value;
    forall k | 0 <= k < |t.slots|
      ensures u.slots[k] == if IsFirst(t.slots, PidIs(pid), k) then t.slots[k].(state := state) else t.slots[k]
    {
      if IsFirst(t.slots, PidIs(pid), k) {
        FirstUnique(t.slots, PidIs(pid), i, k);
      }
    }
  }

  /** In a consistent table, the first slot with a live pid is the first slot with its job id. */
  lemma SameFirstSlot(t: JobTable, pid: int)
    requires Consistent(t)
    requires pid >= 1 && Has(t.slots, PidIs(pid))
    ensures forall k :: IsFirst(t.slots, PidIs(pid), k) <==> IsFirst(t.slots, JidIs(Pid2Jid(t, pid)), k)
  {
    var i := GetJobPid(t, pid).value;
    var jid := t.slots[i].jid;
    assert Pid2Jid(t, pid) == jid;
    FirstPidFirstJid(t, pid, i);
    forall k
      ensures IsFirst(t.slots, PidIs(pid), k) <==> IsFirst(t.slots, JidIs(jid), k)
    {
      if IsFirst(t.slots, PidIs(pid), k) {
        FirstUnique(t.slots, PidIs(pid), i, k);
      }
      if IsFirst(t.slots, JidIs(jid), k) {
        FirstUnique(t.slots, JidIs(jid), i, k);
      }
    }
  }

  // ---------------------------------------------------------------------
  // Sequences of calls
  // ---------------------------------------------------------------------

  datatype Op = Add(pid: int, state: JobState, cmdline: string) | Delete(pid: int)

  /** One addjob or deletejob call, as the code performs it. */
  function Call(t: JobTable, op: Op): JobTable {
    match op
    case Add(pid, state, cmdline) => AddJob(t, pid, state, cmdline).table
    case Delete(pid) => DeleteJob(t, pid).table
  }

  /** A sequence of addjob and deletejob calls. */
  function Apply(t: JobTable, ops: seq<Op>): JobTable
    decreases |ops|
  {
    if |ops| == 0 then t else Apply(Call(t, ops[0]), ops[1..])
  }

  /** The same sequence with the fixed addjob. */
  function ApplyFixed(t: JobTable, ops: seq<Op>): JobTable
    decreases |ops|
  {
    if |ops| == 0 then t
    else
      var next := match ops[0]
        case Add(pid, state, cmdline) => AddJobFixed(t, pid, state, cmdline).table
        case Delete(pid) => DeleteJob(t, pid).table;
      ApplyFixed(next, ops[1..])
  }

  /** The job list at startup: nextjid is 1 and initjobs has cleared every slot. */
  function Startup(t: JobTable): (r: JobTable)
    requires t.nextjid == 1
    ensures Consistent(r)
  {
    InitJobs(t)
  }

  /** With the fixed addjob, job ids stay unique through any sequence of calls. */
  lemma {:induction false} FixedCallsKeepJidsUnique(t: JobTable, ops: seq<Op>)
    requires Consistent(t)
    ensures Consistent(ApplyFixed(t, ops))
    ensures UniqueJids(ApplyFixed(t, ops))
    decreases |ops|
  {
    if |ops| > 0 {
      match ops[0]
      case Add(pid, state, cmdline) =>
        AddJobFixedConsistent(t, pid, state, cmdline);
        FixedCallsKeepJidsUnique(AddJobFixed(t, pid, state, cmdline).table, ops[1..]);
      case Delete(pid) =>
        DeleteJobConsistent(t, pid);
        FixedCallsKeepJidsUnique(DeleteJob(t, pid).table, ops[1..]);
    }
  }

  // ---------------------------------------------------------------------
  // The sequence of calls that duplicates a job id
  // ---------------------------------------------------------------------

  /** k background jobs with pids 100, 101, ... and job ids 1, 2, ... in the first k slots. */
  function Filled(k: nat): JobTable {
    JobTable(seq(MaxJobs, i => if i < k then Job(100 + i, i + 1, Bg, "") else Cleared), k + 1)
  }

  function Adds(k: nat): seq<Op> {
    seq(k, i => Add(100 + i, Bg, ""))
  }

  lemma {:induction false} ApplyAppend(t: JobTable, xs: seq<Op>, ys: seq<Op>)
    ensures Apply(t, xs + ys) == Apply(Apply(t, xs), ys)
    decreases |xs|
  {
    if |xs| == 0 {
      assert xs + ys == ys;
    } else {
      assert (xs + ys)[1..] == xs[1..] + ys;
      ApplyAppend(Call(t, xs[0]), xs[1..], ys);
    }
  }

  lemma AddOneMore(k: nat)
    requires k < MaxJobs - 1
    ensures AddJob(Filled(k), 100 + k, Bg, "") == Update(true, Filled(k + 1))
  {
    var t := Filled(k);
    assert IsFirst(t.slots, PidIs(0), k);
    assert Has(t.slots, PidIs(0));
    FirstUnique(t.slots, PidIs(0), k, Find(t.slots, PidIs(0)).value);
    assert t.slots[k := Job(100 + k, t.nextjid, Bg, "")] == Filled(k + 1).slots;
  }

  lemma {:induction false} FillFromStartup(k: nat)
    requires k < MaxJobs
    ensures Apply(Filled(0), Adds(k)) == Filled(k)
  {
    if k > 0 {
      FillFromStartup(k - 1);
      assert Adds(k) == Adds(k - 1) + [Add(100 + (k - 1), Bg, "")];
      ApplyAppend(Filled(0), Adds(k - 1), [Add(100 + (k - 1), Bg, "")]);
      AddOneMore(k - 1);
    }
  }

  /** The three calls after the fifteen additions. */
  const Tail: seq<Op> := [Delete(101), Add(200, Bg, ""), Add(201, Bg, "")]

  /** After deleting job 2 from fifteen jobs, nextjid is 16. */
  function AfterDelete(): JobTable {
    JobTable(Filled(15).slots[1 := Cleared], 16)
  }

  /** Job id 16 goes to pid 200 in slot 1, and nextjid wraps to 1. */
  function AfterWrap(): JobTable {
    JobTable(Filled(15).slots[1 := Job(200, 16, Bg, "")], 1)
  }

  /** Job id 1 goes to pid 201 in slot 15, while pid 100 in slot 0 still has it. */
  function AfterDuplicate(): JobTable {
    JobTable(Filled(15).slots[1 := Job(200, 16, Bg, "")][15 := Job(201, 1, Bg, "")], 2)
  }

  lemma DeleteStep()
    ensures DeleteJob(Filled(15), 101) == Update(true, AfterDelete())
  {
    var t := Filled(15);
    assert IsFirst(t.slots, PidIs(101), 1);
    FirstUnique(t.slots, PidIs(101), 1, Find(t.slots, PidIs(101)).value);
    var s := t.slots[1 := Cleared];
    assert s[14].jid == 15;
    assert forall k :: 0 <= k < |s| ==> s[k].jid <= 15;
  }

  lemma WrapStep()
    ensures AddJob(AfterDelete(), 200, Bg, "") == Update(true, AfterWrap())
  {
    var t := AfterDelete();
    assert IsFirst(t.slots, PidIs(0), 1);
    FirstUnique(t.slots, PidIs(0), 1, Find(t.slots, PidIs(0)).value);
  }

  lemma DuplicateStep()
    ensures AddJob(AfterWrap(), 201, Bg, "") == Update(true, AfterDuplicate())
  {
    var t := AfterWrap();
    assert IsFirst(t.slots, PidIs(0), 15);
    FirstUnique(t.slots, PidIs(0), 15, Find(t.slots, PidIs(0)).value);
  }

  /** The calls that end in two live jobs sharing job id 1. */
  lemma TraceEndsDuplicated(t: JobTable)
    requires t.nextjid == 1
    ensures Apply(Startup(t), Adds(15) + Tail) == AfterDuplicate()
  {
    assert Startup(t) == Filled(0);
    FillFromStartup(15);
    ApplyAppend(Filled(0), Adds(15), Tail);
    ApplyTail();
  }

  lemma ApplyTail()
    ensures Apply(Filled(15), Tail) == AfterDuplicate()
  {
    assert Tail[0] == Delete(101) && Tail[1..] == [Add(200, Bg, ""), Add(201, Bg, "")];
    DeleteStep();
    ApplyCons(Filled(15), Tail);
    ApplyAfterDelete();
  }

  lemma ApplyAfterDelete()
    ensures Apply(AfterDelete(), [Add(200, Bg, ""), Add(201, Bg, "")]) == AfterDuplicate()
  {
    var ops := [Add(200, Bg, ""), Add(201, Bg, "")];
    assert ops[0] == Add(200, Bg, "") && ops[1..] == [Add(201, Bg, "")];
    WrapStep();
    ApplyCons(AfterDelete(), ops);
    ApplyAfterWrap();
  }

  lemma ApplyAfterWrap()
    ensures Apply(AfterWrap(), [Add(201, Bg, "")]) == AfterDuplicate()
  {
    assert [Add(201, Bg, "")][1..] == [];
    DuplicateStep();
    ApplyCons(AfterWrap(), [Add(201, Bg, "")]);
  }

  lemma ApplyCons(t: JobTable, ops: seq<Op>)
    requires |ops| > 0
    ensures Apply(t, ops) == Apply(Call(t, ops[0]), ops[1..])
  {
  }

  /** pid2jid(201) is 1, and the first slot with job id 1 is pid 100's. */
  lemma WrongSlotChanged()
    ensures var u := AfterDuplicate();
      && ChangeJobState(u, 201, Stopped).Some?
      && ChangeJobState(u, 201, Stopped).value.slots[0].state == Stopped
      && ChangeJobState(u, 201, Stopped).value.slots[15].state == Bg
  {
    var u := AfterDuplicate();
    assert IsFirst(u.slots, PidIs(201), 15);
    FirstUnique(u.slots, PidIs(201), 15, GetJobPid(u, 201).value);
    assert Pid2Jid(u, 201) == 1;
    assert IsFirst(u.slots, JidIs(1), 0);
    assert !IsFirst(u.slots, JidIs(1), 15);
  }

  /**
    Fifteen additions, the deletion of the job with pid 101, and two more
    additions leave pid 100 and pid 201 both holding job id 1; a state change
    for pid 201 then lands on pid 100's slot. With the fixed addjob the same
    calls keep job ids unique.
   */
  lemma DuplicateJidTrace(t: JobTable)
    requires t.nextjid == 1
    ensures var u := Apply(Startup(t), Adds(15) + Tail);
      && |u.slots| == MaxJobs
      && u.slots[0].pid == 100 && u.slots[15].pid == 201
      && u.slots[0].jid == 1 && u.slots[15].jid == 1
      && !UniqueJids(u)
    ensures var u := Apply(Startup(t), Adds(15) + Tail);
      && ChangeJobState(u, 201, Stopped).Some?
      && ChangeJobState(u, 201, Stopped).value.slots[0].state == Stopped
      && ChangeJobState(u, 201, Stopped).value.slots[15].state == Bg
    ensures UniqueJids(ApplyFixed(Startup(t), Adds(15) + Tail))
  {
    TraceEndsDuplicated(t);
    DuplicatedJids();
    WrongSlotChanged();
    FixedCallsKeepJidsUnique(Startup(t), Adds(15) + Tail);
  }

  lemma DuplicatedJids()
    ensures var u := AfterDuplicate();
      && |u.slots| == MaxJobs
      && u.slots[0].pid == 100 && u.slots[15].pid == 201
      && u.slots[0].jid == 1 && u.slots[15].jid == 1
      && !UniqueJids(u)
  {
    var u := AfterDuplicate();
    assert u.slots[0].pid == 100 && u.slots[15].pid == 201;
    assert u.slots[0].jid == u.slots[15].jid;
  }
}

=== FILE: jobs.dfy ===
/**
  The tiny shell's job list (tsh.c): a fixed array of slots, each holding a
  process id, a job id, a state and the command line, plus the counter
  nextjid from which job ids are handed out. A slot whose pid is 0 is empty.
  Every helper is a linear scan for the first slot that matches a key.
 */
module Jobs {
  import opened Wrappers

  /** MAXJOBS: the number of slots. */
  const MaxJobs := 16

  /** UNDEF, FG, BG and ST. */
  datatype JobState = Undef | Fg | Bg | Stopped

  datatype Job = Job(pid: int, jid: int, state: JobState, cmdline: string)

  /** The contents of a slot after clearjob. */
  const Cleared := Job(0, 0, Undef, "")

  datatype JobTable = JobTable(slots: seq<Job>, nextjid: int)

  /** What addjob and deletejob return (1 or 0), with the table they leave behind. */
  datatype Update = Update(ok: bool, table: JobTable)

  /** What a scan compares each slot against. */
  datatype Key = PidIs(pid: int) | JidIs(jid: int) | StateIs(state: JobState)

  predicate Matches(j: Job, key: Key) {
    match key
    case PidIs(p) => j.pid == p
    case JidIs(n) => j.jid == n
    case StateIs(s) => j.state == s
  }

  predicate Has(slots: seq<Job>, key: Key) {
    exists i :: 0 <= i < |slots| && Matches(slots[i], key)
  }

  /** Slot i is the first one that matches the key. */
  predicate IsFirst(slots: seq<Job>, key: Key, i: int) {
    && 0 <= i < |slots|
    && Matches(slots[i], key)
    && forall k :: 0 <= k < i ==> !Matches(slots[k], key)
  }

  lemma FirstUnique(slots: seq<Job>, key: Key, i: int, j: int)
    requires IsFirst(slots, key, i) && IsFirst(slots, key, j)
    ensures i == j
  {
  }

  /** The scan from index `from` on. */
  function FindFrom(slots: seq<Job>, key: Key, from: nat): (r: Option<nat>)
    requires from <= |slots|
    ensures r.Some? ==> from <= r.value < |slots| && Matches(slots[r.value], key)
    ensures r.Some? ==> forall k :: from <= k < r.value ==> !Matches(slots[k], key)
    ensures r.None? ==> forall k :: from <= k < |slots| ==> !Matches(slots[k], key)
    decreases |slots| - from
  {
    if from == |slots| then None
    else if Matches(slots[from], key) then Some(from)
    else FindFrom(slots, key, from + 1)
  }

  /** The index of the first slot that matches the key, if any. */
  function Find(slots: seq<Job>, key: Key): (r: Option<nat>)
    ensures r.Some? <==> Has(slots, key)
    ensures r.Some? ==> IsFirst(slots, key, r.value)
  {
    FindFrom(slots, key, 0)
  }

  /** initjobs: every slot cleared; the counter is not touched. */
  function InitJobs(t: JobTable): (r: JobTable)
    ensures |r.slots| == MaxJobs
    ensures forall i :: 0 <= i < |r.slots| ==> r.slots[i] == Cleared
    ensures r.nextjid == t.nextjid
  {
    JobTable(seq(MaxJobs, _ => Cleared), t.nextjid)
  }

  /** The largest job id in the slots, and 0 when none is positive. */
  function MaxJidOf(slots: seq<Job>): (m: int)
    ensures m >= 0
    ensures forall i :: 0 <= i < |slots| ==> slots[i].jid <= m
    ensures m > 0 ==> exists i :: 0 <= i < |slots| && slots[i].jid == m
  {
    if |slots| == 0 then 0
    else
      var rest := MaxJidOf(slots[1..]);
      assert forall i :: 1 <= i < |slots| ==> slots[i] == slots[1..][i - 1];
      if slots[0].jid > rest then slots[0].jid else rest
  }

  /** maxjid. */
  function MaxJid(t: JobTable): (m: int)
    ensures m >= 0
    ensures forall i :: 0 <= i < |t.slots| ==> t.slots[i].jid <= m
    ensures m > 0 ==> exists i :: 0 <= i < |t.slots| && t.slots[i].jid == m
  {
    MaxJidOf(t.slots)
  }

  /**
    addjob: a pid below 1, or no empty slot, fails and changes nothing;
    otherwise the first empty slot receives the job with job id nextjid, and
    nextjid advances, wrapping to 1 once it passes MAXJOBS.
   */
  function AddJob(t: JobTable, pid: int, state: JobState, cmdline: string): (r: Update)
    ensures !r.ok <==> pid < 1 || !Has(t.slots, PidIs(0))
    ensures !r.ok ==> r.table == t
    ensures r.ok ==> exists i ::
      IsFirst(t.slots, PidIs(0), i) && r.table.slots == t.slots[i := Job(pid, t.nextjid, state, cmdline)]
    ensures r.ok && t.nextjid < MaxJobs ==> r.table.nextjid == t.nextjid + 1
    ensures r.ok && t.nextjid >= MaxJobs ==> r.table.nextjid == 1
  {
    if pid < 1 then Update(false, t)
    else
      match Find(t.slots, PidIs(0))
      case None => Update(false, t)
      case Some(i) =>
        var next := if t.nextjid + 1 > MaxJobs then 1 else t.nextjid + 1;
        Update(true, JobTable(t.slots[i := Job(pid, t.nextjid, state, cmdline)], next))
  }

  /**
    deletejob: a pid below 1, or a pid in no slot, fails and changes nothing;
    otherwise the first slot with that pid is cleared and nextjid becomes one
    more than the largest job id left.
   */
  function DeleteJob(t: JobTable, pid: int): (r: Update)
    ensures !r.ok <==> pid < 1 || !Has(t.slots, PidIs(pid))
    ensures !r.ok ==> r.table == t
    ensures r.ok ==> exists i :: IsFirst(t.slots, PidIs(pid), i) && r.table.slots == t.slots[i := Cleared]
    ensures r.ok ==> r.table.nextjid == MaxJid(r.table) + 1
  {
    if pid < 1 then Update(false, t)
    else
      match Find(t.slots, PidIs(pid))
      case None => Update(false, t)
      case Some(i) =>
        var slots := t.slots[i := Cleared];
        Update(true, JobTable(slots, MaxJidOf(slots) + 1))
  }

  /** fgpid: the pid of the first slot in the foreground state, or 0. */
  function FgPid(t: JobTable): (r: int)
    ensures !Has(t.slots, StateIs(Fg)) ==> r == 0
    ensures forall i :: IsFirst(t.slots, StateIs(Fg), i) ==> r == t.slots[i].pid
  {
    match Find(t.slots, StateIs(Fg))
    case None => 0
    case Some(i) => t.slots[i].pid
  }

  /** getjobpid: the first slot with that pid; none for a pid below 1. */
  function GetJobPid(t: JobTable, pid: int): (r: Option<nat>)
    ensures r.Some? <==> pid >= 1 && Has(t.slots, PidIs(pid))
    ensures r.Some? ==> IsFirst(t.slots, PidIs(pid), r.value)
  {
    if pid < 1 then None else Find(t.slots, PidIs(pid))
  }

  /** getjobjid: the first slot with that job id; none for a job id below 1. */
  function GetJobJid(t: JobTable, jid: int): (r: Option<nat>)
    ensures r.Some? <==> jid >= 1 && Has(t.slots, JidIs(jid))
    ensures r.Some? ==> IsFirst(t.slots, JidIs(jid), r.value)
  {
    if jid < 1 then None else Find(t.slots, JidIs(jid))
  }

  /** pid2jid: the job id of the first slot with that pid, or 0. */
  function Pid2Jid(t: JobTable, pid: int): (r: int)
    ensures pid < 1 || !Has(t.slots, PidIs(pid)) ==> r == 0
    ensures pid >= 1 ==> forall i :: IsFirst(t.slots, PidIs(pid), i) ==> r == t.slots[i].jid
  {
    match GetJobPid(t, pid)
    case None => 0
    case Some(i) => t.slots[i].jid
  }

  /** jid2pid: the pid of the first slot with that job id, or 0; unlike the others it has no guard on its key. */
  function Jid2Pid(t: JobTable, jid: int): (r: int)
    ensures !Has(t.slots, JidIs(jid)) ==> r == 0
    ensures forall i :: IsFirst(t.slots, JidIs(jid), i) ==> r == t.slots[i].pid
  {
    match Find(t.slots, JidIs(jid))
    case None => 0
    case Some(i) => t.slots[i].pid
  }

  /** The loop both state changers share: the first slot with that job id takes the new state. */
  function SetStateOfJid(slots: seq<Job>, jid: int, state: JobState): (r: seq<Job>)
    ensures |r| == |slots|
    ensures forall i :: 0 <= i < |slots| ==>
      r[i] == if IsFirst(slots, JidIs(jid), i) then slots[i].(state := state) else slots[i]
  {
    match Find(slots, JidIs(jid))
    case None => slots
    case Some(i) => slots[i := slots[i].(state := state)]
  }

  /**
    change_job_state: none when the shell exits because the pid has no job
    id; otherwise only the state of the first slot carrying pid2jid(pid)
    changes.
   */
  function ChangeJobState(t: JobTable, pid: int, state: JobState): (r: Option<JobTable>)
    ensures r.None? <==> Pid2Jid(t, pid) == 0
    ensures r.Some? ==> r.value.nextjid == t.nextjid && |r.value.slots| == |t.slots|
    ensures r.Some? ==> forall i :: 0 <= i < |t.slots| ==>
      r.value.slots[i] == if IsFirst(t.slots, JidIs(Pid2Jid(t, pid)), i) then t.slots[i].(state := state) else t.slots[i]
  {
    var jid := Pid2Jid(t, pid);
    if jid == 0 then None else Some(t.(slots := SetStateOfJid(t.slots, jid, state)))
  }

  /**
    change_job_state_jid: none when the shell exits on job id 0; an absent
    job id leaves the table as it was; otherwise only the state of the first
    slot with that job id changes.
   */
  function ChangeJobStateJid(t: JobTable, jid: int, state: JobState): (r: Option<JobTable>)
    ensures r.None? <==> jid == 0
    ensures r.Some? && !Has(t.slots, JidIs(jid)) ==> r.value == t
    ensures r.Some? ==> r.value.nextjid == t.nextjid && |r.value.slots| == |t.slots|
    ensures r.Some? ==> forall i :: 0 <= i < |t.slots| ==>
      r.value.slots[i] == if IsFirst(t.slots, JidIs(jid), i) then t.slots[i].(state := state) else t.slots[i]
  {
    if jid == 0 then None else Some(t.(slots := SetStateOfJid(t.slots, jid, state)))
  }

  // ---------------------------------------------------------------------
  // Lookups after an update
  // ---------------------------------------------------------------------

  /** After a successful addjob of a pid not yet in the table, the lookups find the new job under the old nextjid. */
  lemma AddJobThenLookup(t: JobTable, pid: int, state: JobState, cmdline: string)
    requires !Has(t.slots, PidIs(pid))
    requires AddJob(t, pid, state, cmdline).ok
    ensures var u := AddJob(t, pid, state, cmdline).table;
      && GetJobPid(u, pid).Some?
      && u.slots[GetJobPid(u, pid).value] == Job(pid, t.nextjid, state, cmdline)
      && Pid2Jid(u, pid) == t.nextjid
  {
    var u := AddJob(t, pid, state, cmdline).table;
    var i :| IsFirst(t.slots, PidIs(0), i) && u.slots == t.slots[i := Job(pid, t.nextjid, state, cmdline)];
    assert Matches(u.slots[i], PidIs(pid));
    assert IsFirst(u.slots, PidIs(pid), i);
    FirstUnique(u.slots, PidIs(pid), i, GetJobPid(u, pid).value);
  }

  /** After a successful deletejob, when no other slot held the pid, the pid is gone. */
  lemma DeleteJobThenLookup(t: JobTable, pid: int)
    requires DeleteJob(t, pid).ok
    requires forall i, j :: 0 <= i < j < |t.slots| && t.slots[i].pid == pid ==> t.slots[j].pid != pid
    ensures GetJobPid(DeleteJob(t, pid).table, pid).None?
    ensures Pid2Jid(DeleteJob(t, pid).table, pid) == 0
  {
    var u := DeleteJob(t, pid).table;
    var i :| IsFirst(t.slots, PidIs(pid), i) && u.slots == t.slots[i := Cleared];
    forall k | 0 <= k < |u.slots|
      ensures !Matches(u.slots[k], PidIs(pid))
    {
      if k < i {
        assert !Matches(t.slots[k], PidIs(pid));
      } else if k > i {
        assert t.slots[k].pid != pid;
      }
    }
  }

  /** initjobs leaves nothing to find: no job ids, no foreground job, no pid. */
  lemma InitJobsEmpty(t: JobTable, pid: int, jid: int)
    ensures MaxJid(InitJobs(t)) == 0
    ensures FgPid(InitJobs(t)) == 0
    ensures GetJobPid(InitJobs(t), pid).None?
    ensures GetJobJid(InitJobs(t), jid).None?
  {
    var u := InitJobs(t);
    assert !Has(u.slots, StateIs(Fg));
    if pid >= 1 {
      assert !Has(u.slots, PidIs(pid));
    }
    if jid >= 1 {
      assert !Has(u.slots, JidIs(jid));
    }
  }

  // ---------------------------------------------------------------------
  // At most one foreground job
  // ---------------------------------------------------------------------

  /** The documented assumption on the job list: at most one slot is in the foreground state. */
  predicate AtMostOneFg(t: JobTable) {
    forall i, j :: 0 <= i < j < |t.slots| && t.slots[i].state == Fg ==> t.slots[j].state != Fg
  }

  /** With at most one foreground job, fgpid names the pid of any slot in the foreground state. */
  lemma FgPidOfOnlyFg(t: JobTable, i: int)
    requires AtMostOneFg(t)
    requires 0 <= i < |t.slots| && t.slots[i].state == Fg
    ensures FgPid(t) == t.slots[i].pid
  {
    assert IsFirst(t.slots, StateIs(Fg), i);
  }

  /** addjob keeps the assumption when it adds a job that is not foreground, or when no job is in the foreground. */
  lemma AddJobKeepsOneFg(t: JobTable, pid: int, state: JobState, cmdline: string)
    requires AtMostOneFg(t)
    requires state == Fg ==> !Has(t.slots, StateIs(Fg))
    ensures AtMostOneFg(AddJob(t, pid, state, cmdline).table)
  {
    var r := AddJob(t, pid, state, cmdline);
    if r.ok {
      var i :| IsFirst(t.slots, PidIs(0), i) && r.table.slots == t.slots[i := Job(pid, t.nextjid, state, cmdline)];
      if state == Fg {
        assert forall k :: 0 <= k < |t.slots| ==> !Matches(t.slots[k], StateIs(Fg));
      }
    }
  }

  /** deletejob keeps the assumption. */
  lemma DeleteJobKeepsOneFg(t: JobTable, pid: int)
    requires AtMostOneFg(t)
    ensures AtMostOneFg(DeleteJob(t, pid).table)
  {
  }

  /** A state change keeps the assumption unless it moves a job to the foreground while another is there. */
  lemma ChangeJobStateKeepsOneFg(t: JobTable, pid: int, state: JobState)
    requires AtMostOneFg(t)
    requires state == Fg ==> !Has(t.slots, StateIs(Fg))
    ensures ChangeJobState(t, pid, state).Some? ==> AtMostOneFg(ChangeJobState(t, pid, state).value)
  {
    if state == Fg {
      assert forall k :: 0 <= k < |t.slots| ==> !Matches(t.slots[k], StateIs(Fg));
    }
  }
}

=== FILE: lexer.dfy ===
/**
  The scanning half of the tiny shell's command-line parser (tsh.c, parseline).

  The parser walks its copy of the line with strspn (skip white space),
  strcspn (find the end of a plain token) and strchr (find a closing quote).
  Which characters start a redirection or a quoted token depends only on the
  text, never on the parsing state, so the walk is modelled here as a function
  from the line to the sequence of lexemes it meets; CommandLine then folds the
  parsing state over that sequence.
 */
module Lexer {
  import opened Wrappers

  /** The argument delimiters " \t\r\n". */
  predicate IsDelim(c: char) {
    c == ' ' || c == '\t' || c == '\r' || c == '\n'
  }

  predicate IsQuote(c: char) {
    c == '\'' || c == '"'
  }

  /** A C string: no NUL before its terminator. */
  predicate CString(s: string) {
    forall i :: 0 <= i < |s| ==> s[i] != '\0'
  }

  datatype Lexeme =
    | RedirIn                 // a token starting with '<'
    | RedirOut                // a token starting with '>'
    | Word(text: string)      // a plain or quoted token, quotes dropped
    | Unclosed(quote: char)   // a quote with no matching quote after it

  /** r is what is left of s once some of its leading characters are dropped. */
  predicate IsSuffix(r: string, s: string)
    decreases |s|
  {
    r == s || (|s| > 0 && IsSuffix(r, s[1..]))
  }

  lemma {:induction false} SuffixSlice(r: string, s: string)
    requires IsSuffix(r, s)
    ensures |r| <= |s| && r == s[|s| - |r|..]
    decreases |s|
  {
    if r != s {
      SuffixSlice(r, s[1..]);
    }
  }

  /** strspn: what is left after the leading delimiters. */
  function SkipDelims(s: string): (r: string)
    ensures |r| <= |s| && IsSuffix(r, s)
    ensures forall i :: 0 <= i < |s| - |r| ==> IsDelim(s[i])
    ensures |r| > 0 ==> !IsDelim(r[0])
  {
    if |s| > 0 && IsDelim(s[0]) then SkipDelims(s[1..]) else s
  }

  /** strcspn: the length of the longest prefix holding no delimiter. */
  function WordLength(s: string): (n: nat)
    ensures n <= |s|
    ensures forall i :: 0 <= i < n ==> !IsDelim(s[i])
    ensures n < |s| ==> IsDelim(s[n])
  {
    if |s| == 0 || IsDelim(s[0]) then 0 else 1 + WordLength(s[1..])
  }

  /** strchr: the position of the first occurrence of c, if there is one. */
  function IndexOf(s: string, c: char): (r: Option<nat>)
    ensures r.None? <==> c !in s
    ensures r.Some? ==> r.value < |s| && s[r.value] == c
    ensures r.Some? ==> forall i :: 0 <= i < r.value ==> s[i] != c
  {
    if |s| == 0 then None
    else if s[0] == c then Some(0)
    else match IndexOf(s[1..], c)
      case None => None
      case Some(k) => Some(k + 1)
  }

  /** One token and the text after it. */
  datatype Token = Token(lexeme: Lexeme, rest: string)

  /**
    The token that starts at t[0], a non-delimiter. A plain token runs to the
    next delimiter, which is consumed with it; a token opened by a quote runs
    to the next copy of that quote, and scanning resumes right after it.
   */
  function NextToken(t: string): (r: Token)
    requires |t| > 0
    ensures |r.rest| < |t|
  {
    if t[0] == '<' then Token(RedirIn, t[1..])
    else if t[0] == '>' then Token(RedirOut, t[1..])
    else if IsQuote(t[0]) then
      match IndexOf(t[1..], t[0])
      case None => Token(Unclosed(t[0]), "")
      case Some(k) => Token(Word(t[1..][..k]), t[1..][k + 1..])
    else
      var n := WordLength(t);
      Token(Word(t[..n]), if n < |t| then t[n + 1..] else "")
  }

  /**
    What kind of token starts at t[0]: a redirection exactly when it is '<'
    or '>'; an unmatched quote exactly when it is a quote that does not occur
    again; otherwise a word, which never contains its own quote, and which
    holds no delimiter when it is plain.
   */
  lemma NextTokenKind(t: string)
    requires |t| > 0
    ensures var r := NextToken(t);
      && (r.lexeme.RedirIn? <==> t[0] == '<')
      && (r.lexeme.RedirOut? <==> t[0] == '>')
      && (r.lexeme.Unclosed? <==> IsQuote(t[0]) && t[0] !in t[1..])
      && (r.lexeme.Unclosed? ==> r.lexeme.quote == t[0])
      && (r.lexeme.Word? && IsQuote(t[0]) ==> t[0] !in r.lexeme.text)
      && (r.lexeme.Word? && !IsQuote(t[0]) ==> forall i :: 0 <= i < |r.lexeme.text| ==> !IsDelim(r.lexeme.text[i]))
  {
  }

  /** The lexemes of a line, in the order parseline meets them. */
  function Lex(s: string): seq<Lexeme> {
    Scan(SkipDelims(s))
  }

  /** The lexemes from a token start, or from the end of the line; an open quote ends the scan. */
  function Scan(t: string): seq<Lexeme>
    decreases |t|
  {
    if |t| == 0 then []
    else
      var tok := NextToken(t);
      if tok.lexeme.Unclosed? then [tok.lexeme] else [tok.lexeme] + Scan(SkipDelims(tok.rest))
  }

  /** No quote was left open. */
  predicate Closed(xs: seq<Lexeme>) {
    forall i :: 0 <= i < |xs| ==> !xs[i].Unclosed?
  }

  /** Every piece leaves no quote open. */
  predicate AllClosed(pieces: seq<string>) {
    forall i :: 0 <= i < |pieces| ==> Closed(Lex(pieces[i]))
  }

  /** The lexemes of several pieces, one after the other. */
  function LexAll(pieces: seq<string>): seq<Lexeme> {
    if |pieces| == 0 then [] else Lex(pieces[0]) + LexAll(pieces[1..])
  }

  /** Pieces joined by single spaces. */
  function Unwords(pieces: seq<string>): string {
    if |pieces| == 0 then ""
    else if |pieces| == 1 then pieces[0]
    else pieces[0] + " " + Unwords(pieces[1..])
  }

  // ---------------------------------------------------------------------
  // Rendering a token so that the scanner reads it back
  // ---------------------------------------------------------------------

  /** A token that can be written without quotes. */
  predicate Bare(w: string) {
    && |w| > 0
    && w[0] != '<' && w[0] != '>' && !IsQuote(w[0])
    && forall i :: 0 <= i < |w| ==> !IsDelim(w[i])
  }

  /** A token the line syntax can express: bare, or free of one of the two quotes. */
  predicate Renderable(w: string) {
    Bare(w) || '\'' !in w || '"' !in w
  }

  /** The text that spells the token: bare if possible, else quoted with a quote it does not contain. */
  function Render(w: string): (r: string)
    requires Renderable(w)
    ensures |r| > 0
  {
    if Bare(w) then w
    else if '\'' !in w then "'" + w + "'"
    else "\"" + w + "\""
  }

  // ---------------------------------------------------------------------
  // Lemmas
  // ---------------------------------------------------------------------

  lemma {:induction false} SkipDelimsAppend(a: string, c: string)
    ensures SkipDelims(a + c) == if |SkipDelims(a)| == 0 then SkipDelims(c) else SkipDelims(a) + c
    decreases |a|
  {
    if |a| == 0 {
      assert a + c == c;
    } else if IsDelim(a[0]) {
      assert (a + c)[1..] == a[1..] + c;
      SkipDelimsAppend(a[1..], c);
    }
  }

  lemma {:induction false} WordLengthAppend(a: string, c: string)
    ensures WordLength(a + c) == if WordLength(a) < |a| then WordLength(a) else |a| + WordLength(c)
    decreases |a|
  {
    if |a| == 0 {
      assert a + c == c;
    } else if !IsDelim(a[0]) {
      assert (a + c)[1..] == a[1..] + c;
      WordLengthAppend(a[1..], c);
    }
  }

  lemma {:induction false} IndexOfAppend(a: string, c: string, q: char)
    requires IndexOf(a, q).Some?
    ensures IndexOf(a + c, q) == IndexOf(a, q)
    decreases |a|
  {
    if a[0] != q {
      assert (a + c)[1..] == a[1..] + c;
      IndexOfAppend(a[1..], c, q);
    }
  }

  lemma ClosedSuffix(xs: seq<Lexeme>, ys: seq<Lexeme>)
    requires Closed(xs + ys)
    ensures Closed(ys)
  {
    forall i | 0 <= i < |ys|
      ensures !ys[i].Unclosed?
    {
      assert ys[i] == (xs + ys)[|xs| + i];
    }
  }

  /** Appending a space and more text after a token that closes does not change the token. */
  lemma NextTokenAppend(t: string, b: string)
    requires |t| > 0 && !NextToken(t).lexeme.Unclosed?
    ensures NextToken(t + " " + b).lexeme == NextToken(t).lexeme
    ensures || NextToken(t + " " + b).rest == NextToken(t).rest + " " + b
            || (NextToken(t).rest == "" && NextToken(t + " " + b).rest == b)
  {
    if t[0] == '<' || t[0] == '>' {
      var s := t + " " + b;
      assert s[0] == t[0];
      assert s[1..] == t[1..] + " " + b;
    } else if IsQuote(t[0]) {
      NextTokenAppendQuoted(t, b);
    } else {
      NextTokenAppendPlain(t, b);
    }
  }

  lemma NextTokenAppendQuoted(t: string, b: string)
    requires |t| > 0 && IsQuote(t[0]) && !NextToken(t).lexeme.Unclosed?
    ensures NextToken(t + " " + b) == Token(NextToken(t).lexeme, NextToken(t).rest + " " + b)
  {
    AppendAssoc(t, " ", b);
    QuotedAppend(t, " " + b);
    AppendAssoc(NextToken(t).rest, " ", b);
  }

  /** Text after a closed quoted token does not change the token. */
  lemma QuotedAppend(t: string, c: string)
    requires |t| > 0 && IsQuote(t[0]) && !NextToken(t).lexeme.Unclosed?
    ensures NextToken(t + c) == Token(NextToken(t).lexeme, NextToken(t).rest + c)
  {
    var q := t[0];
    QuoteMatched(t);
    var k := IndexOf(t[1..], q).value;
    QuotedAt(t, k);
    DropFirstAppend(t, c);
    IndexOfAppend(t[1..], c, q);
    QuotedAt(t + c, k);
    SliceAppend(t[1..], c, k);
  }

  lemma AppendAssoc(x: string, y: string, z: string)
    ensures x + y + z == x + (y + z)
  {
  }

  lemma DropFirstAppend(t: string, c: string)
    requires |t| > 0
    ensures (t + c)[0] == t[0] && (t + c)[1..] == t[1..] + c
  {
  }

  lemma SliceAppend(a: string, c: string, k: int)
    requires 0 <= k < |a|
    ensures (a + c)[..k] == a[..k] && (a + c)[k + 1..] == a[k + 1..] + c
  {
  }

  lemma QuoteMatched(t: string)
    requires |t| > 0 && IsQuote(t[0]) && !NextToken(t).lexeme.Unclosed?
    ensures IndexOf(t[1..], t[0]).Some?
  {
  }

  /** The token a quote opens, when its match is k characters further on. */
  lemma QuotedAt(s: string, k: nat)
    requires |s| > 0 && IsQuote(s[0]) && IndexOf(s[1..], s[0]).Some? && IndexOf(s[1..], s[0]).value == k
    ensures NextToken(s) == Token(Word(s[1..][..k]), s[1..][k + 1..])
  {
  }

  lemma NextTokenAppendPlain(t: string, b: string)
    requires |t| > 0 && !IsQuote(t[0]) && t[0] != '<' && t[0] != '>'
    ensures NextToken(t + " " + b).lexeme == NextToken(t).lexeme
    ensures || NextToken(t + " " + b).rest == NextToken(t).rest + " " + b
            || (NextToken(t).rest == "" && NextToken(t + " " + b).rest == b)
  {
    var s := t + " " + b;
    var n := WordLength(t);
    assert WordLength(s) == n by {
      WordLengthAppend(t, " " + b);
      assert s == t + (" " + b);
      assert WordLength(" " + b) == 0;
    }
    assert s[0] == t[0];
    assert s[..n] == t[..n];
    if n < |t| {
      assert s[n + 1..] == t[n + 1..] + " " + b;
    } else {
      assert s[n + 1..] == b;
    }
  }

  /**
    Two lines joined by a space scan to the lexemes of the first followed by
    the lexemes of the second, provided the first leaves no quote open.
   */
  lemma {:induction false} LexAppend(a: string, b: string)
    requires Closed(Lex(a))
    ensures Lex(a + " " + b) == Lex(a) + Lex(b)
    decreases |a|, 1
  {
    var ta := SkipDelims(a);
    assert a + " " + b == a + (" " + b);
    SkipDelimsAppend(a, " " + b);
    if |ta| == 0 {
      SkipOneSpace(b);
    } else {
      assert ta + (" " + b) == ta + " " + b;
      ScanAppend(ta, b);
    }
  }

  /** LexAppend from the start of a token. */
  lemma {:induction false} ScanAppend(t: string, b: string)
    requires |t| > 0 && Closed(Scan(t))
    ensures Scan(t + " " + b) == Scan(t) + Lex(b)
    decreases |t|, 0
  {
    var t' := t + " " + b;
    var tok := NextToken(t);
    ClosedScan(t);
    NextTokenAppend(t, b);
    var tok' := NextToken(t');
    ScanToken(t);
    ScanToken(t');
    if tok'.rest == tok.rest + " " + b {
      LexAppend(tok.rest, b);
      ConsAssoc([tok.lexeme], Lex(tok.rest), Lex(b));
    } else {
      LexEmptyCons([tok.lexeme], tok.rest);
    }
  }

  lemma ConsAssoc(x: seq<Lexeme>, y: seq<Lexeme>, z: seq<Lexeme>)
    ensures x + (y + z) == (x + y) + z
  {
  }

  lemma LexEmptyCons(x: seq<Lexeme>, s: string)
    requires s == ""
    ensures x + Lex(s) == x
  {
    assert Lex(s) == [];
  }

  /** Scanning from a closed token: the token, then the lexemes of what follows it. */
  lemma ScanToken(t: string)
    requires |t| > 0 && !NextToken(t).lexeme.Unclosed?
    ensures Scan(t) == [NextToken(t).lexeme] + Lex(NextToken(t).rest)
  {
  }

  lemma ClosedScan(t: string)
    requires |t| > 0 && Closed(Scan(t))
    ensures !NextToken(t).lexeme.Unclosed? && Closed(Lex(NextToken(t).rest))
  {
    var tok := NextToken(t);
    assert Scan(t)[0] == tok.lexeme;
    ScanToken(t);
    ClosedSuffix([tok.lexeme], Lex(tok.rest));
  }

  lemma SkipOneSpace(b: string)
    ensures Lex(" " + b) == Lex(b)
  {
    var c := " " + b;
    assert c[1..] == b;
    assert SkipDelims(c) == SkipDelims(b);
  }

  /**
    A token opened by a quote is one word: everything up to the next copy of
    that quote, white space included, with both quotes dropped.
   */
  lemma QuotedToken(q: char, w: string, rest: string)
    requires IsQuote(q) && q !in w
    ensures Lex([q] + w + [q] + rest) == [Word(w)] + Lex(rest)
  {
    var s := [q] + w + [q] + rest;
    QuotedShape(q, w, rest);
    QuotedNext(s, w, rest);
    LexToken(s);
  }

  /** The token a quote opens, when the matching quote comes after w. */
  lemma QuotedNext(s: string, w: string, rest: string)
    requires |s| > 0 && IsQuote(s[0]) && s[0] !in w
    requires s[1..] == w + ([s[0]] + rest)
    ensures NextToken(s) == Token(Word(w), rest)
  {
    var q := s[0];
    IndexOfHead(q, rest);
    IndexOfPast(w, [q] + rest, q);
    QuotedAt(s, |w|);
    SlicePast(w, q, rest);
  }

  lemma QuotedShape(q: char, w: string, rest: string)
    ensures ([q] + w + [q] + rest)[0] == q && ([q] + w + [q] + rest)[1..] == w + ([q] + rest)
  {
  }

  lemma IndexOfHead(q: char, rest: string)
    ensures IndexOf([q] + rest, q).Some? && IndexOf([q] + rest, q).value == 0
  {
  }

  lemma SlicePast(w: string, q: char, rest: string)
    ensures (w + ([q] + rest))[..|w|] == w && (w + ([q] + rest))[|w| + 1..] == rest
  {
  }

  /** A line that starts with a closed token lexes to that token, then the rest. */
  lemma LexToken(s: string)
    requires |s| > 0 && !IsDelim(s[0]) && !NextToken(s).lexeme.Unclosed?
    ensures Lex(s) == [NextToken(s).lexeme] + Lex(NextToken(s).rest)
  {
    assert SkipDelims(s) == s;
  }

  /** A quote with no matching quote after it leaves the line unclosed. */
  lemma UnclosedToken(q: char, w: string)
    requires IsQuote(q) && q !in w
    ensures Lex([q] + w) == [Unclosed(q)]
  {
    var s := [q] + w;
    assert s[0] == q;
    assert SkipDelims(s) == s;
    assert s[1..] == w;
    assert NextToken(s) == Token(Unclosed(q), "");
  }

  lemma IndexOfPast(a: string, c: string, q: char)
    requires q !in a && q in c
    ensures IndexOf(a + c, q).Some? && IndexOf(a + c, q).value == |a| + IndexOf(c, q).value
  {
    var n := IndexOf(c, q).value;
    NoneBeforeAppend(a, c, q, n);
    IndexOfAt(a + c, q, |a| + n);
  }

  lemma NoneBeforeAppend(a: string, c: string, q: char, n: int)
    requires q !in a && 0 <= n < |c| && c[n] == q
    requires forall i :: 0 <= i < n ==> c[i] != q
    ensures (a + c)[|a| + n] == q
    ensures forall i :: 0 <= i < |a| + n ==> (a + c)[i] != q
  {
    var s := a + c;
    forall i | 0 <= i < |a| + n
      ensures s[i] != q
    {
      if i < |a| {
        assert s[i] == a[i];
      } else {
        assert s[i] == c[i - |a|];
      }
    }
  }

  /** The first position holding q is where IndexOf stops. */
  lemma IndexOfAt(s: string, q: char, k: int)
    requires 0 <= k < |s| && s[k] == q
    requires forall i :: 0 <= i < k ==> s[i] != q
    ensures IndexOf(s, q).Some? && IndexOf(s, q).value == k
  {
    assert q in s;
  }

  /** A rendered token scans back to exactly that token. */
  lemma LexRender(w: string)
    requires Renderable(w)
    ensures Lex(Render(w)) == [Word(w)]
  {
    if Bare(w) {
      assert SkipDelims(w) == w;
      WordLengthAll(w);
      assert w[..|w|] == w;
      assert NextToken(w) == Token(Word(w), "");
      assert SkipDelims("") == "";
      assert Scan(w) == [Word(w)] + Scan("");
    } else {
      var q := if '\'' !in w then '\'' else '"';
      assert Render(w) == [q] + w + [q] + [];
      QuotedToken(q, w, []);
      assert SkipDelims([]) == [];
    }
  }

  lemma {:induction false} WordLengthAll(w: string)
    requires forall i :: 0 <= i < |w| ==> !IsDelim(w[i])
    ensures WordLength(w) == |w|
    decreases |w|
  {
    if |w| > 0 {
      WordLengthAll(w[1..]);
    }
  }

  /** Pieces that each scan without an open quote scan, joined by spaces, to their lexemes in order. */
  lemma {:induction false} LexUnwords(pieces: seq<string>)
    requires AllClosed(pieces)
    ensures Lex(Unwords(pieces)) == LexAll(pieces)
    decreases |pieces|
  {
    if |pieces| == 0 {
      assert Lex("") == [];
    } else if |pieces| == 1 {
      assert LexAll(pieces[1..]) == [];
    } else {
      LexUnwords(pieces[1..]);
      LexAppend(pieces[0], Unwords(pieces[1..]));
    }
  }

  /** A line of delimiters only has no lexemes, and only such a line has none. */
  lemma LexBlank(s: string)
    ensures Lex(s) == [] <==> forall i :: 0 <= i < |s| ==> IsDelim(s[i])
  {
    var t := SkipDelims(s);
    if |t| > 0 {
      SuffixSlice(t, s);
      assert t[0] == s[|s| - |t|];
      assert !IsDelim(s[|s| - |t|]);
      assert Scan(t)[0] == NextToken(t).lexeme;
    }
  }

  // ---------------------------------------------------------------------
  // The words of a line can be written back out
  // ---------------------------------------------------------------------

  /** Every word parseline reads from a C string is a C string the line syntax can spell again. */
  lemma LexWords(s: string)
    requires CString(s)
    ensures forall i :: 0 <= i < |Lex(s)| && Lex(s)[i].Word? ==> Renderable(Lex(s)[i].text) && CString(Lex(s)[i].text)
  {
    var t := SkipDelims(s);
    SuffixSlice(t, s);
    assert CString(t);
    ScanWords(t);
  }

  lemma {:induction false} ScanWords(t: string)
    requires CString(t) && (|t| > 0 ==> !IsDelim(t[0]))
    ensures forall i :: 0 <= i < |Scan(t)| && Scan(t)[i].Word? ==> Renderable(Scan(t)[i].text) && CString(Scan(t)[i].text)
    decreases |t|
  {
    if |t| > 0 {
      var tok := NextToken(t);
      NextTokenWord(t);
      if !tok.lexeme.Unclosed? {
        var u := SkipDelims(tok.rest);
        SuffixSlice(u, tok.rest);
        assert CString(u);
        ScanWords(u);
        assert Scan(t) == [tok.lexeme] + Scan(u);
      }
    }
  }

  /** The token at a token start: a word it reads can be spelled again, and the rest is still a C string. */
  lemma NextTokenWord(t: string)
    requires CString(t) && |t| > 0 && !IsDelim(t[0])
    ensures CString(NextToken(t).rest)
    ensures NextToken(t).lexeme.Word? ==> Renderable(NextToken(t).lexeme.text) && CString(NextToken(t).lexeme.text)
  {
    if t[0] == '<' || t[0] == '>' {
    } else if IsQuote(t[0]) {
      match IndexOf(t[1..], t[0])
      case None =>
      case Some(k) =>
        var w := t[1..][..k];
        assert t[0] !in w;
    } else {
      var n := WordLength(t);
      assert n > 0;
      assert Bare(t[..n]);
    }
  }
}

=== FILE: parser.dfy ===
/**
  The tiny shell's command-line parser (tsh.c, parseline): the parsing state
  (ST_NORMAL, ST_INFILE, ST_OUTFILE, or both bits at once) folded over the
  lexemes of the line, then the end-of-line checks, the builtin
  classification of argv[0] and the removal of a trailing '&' argument.
 */
module CommandLine {
  import opened Wrappers
  import opened Lexer

  /** MAXARGS: the size of argv, including its NULL terminator. */
  const MaxArgs := 128

  datatype Builtin = NoBuiltin | Quit | Jobs | Bg | Fg

  /** The three messages parseline prints before returning -1. */
  datatype ParseError =
    | AmbiguousRedirection      // "Ambiguous I/O redirection"
    | UnmatchedQuote(quote: char)  // "unmatched %c."
    | MissingFileName           // "must provide file name for redirection"
    | NullLine                  // "command line is NULL"

  /**
    The token record while scanning: the arguments so far, the redirection
    files, and the two bits of the parsing state (a '<' or '>' seen and
    waiting for its file name).
   */
  datatype Tokens = Tokens(
    argv: seq<string>,
    infile: Option<string>,
    outfile: Option<string>,
    wantIn: bool,
    wantOut: bool)

  const Start := Tokens([], None, None, false, false)

  /** Where the scan stands: still going, stopped because argv is full, or failed. */
  datatype Progress =
    | Scanning(tok: Tokens)
    | Full(tok: Tokens)
    | Failed(error: ParseError)

  /** What parseline hands back: -1, or the token record with the background flag. */
  datatype ParseResult =
    | Malformed(error: ParseError)
    | Parsed(argv: seq<string>, infile: Option<string>, outfile: Option<string>, builtin: Builtin, bg: bool)

  /**
    One iteration of parseline's loop, for the token it has just found;
    once argv is full or the line has failed, the loop has already stopped.
   */
  function Step(p: Progress, x: Lexeme): (r: Progress)
    ensures !p.Scanning? ==> r == p
    ensures Bounded(p) ==> Bounded(r)
  {
    match p
    case Scanning(tok) => Consume(tok, x)
    case _ => p
  }

  /**
    The body of the loop while scanning: an operator sets its state bit
    unless its file is already recorded; a word is recorded as the pending
    file or as the next argument, and clears the state; argv filling up
    stops the loop.
   */
  function Consume(tok: Tokens, x: Lexeme): (r: Progress)
    ensures r.Failed? <==>
      || (x.RedirIn? && tok.infile.Some?)
      || (x.RedirOut? && tok.outfile.Some?)
      || x.Unclosed?
      || (x.Word? && tok.wantIn && tok.wantOut)
    ensures !r.Failed? && x.Word? ==> !r.tok.wantIn && !r.tok.wantOut
    ensures !r.Failed? ==> |r.tok.argv| == |tok.argv| + (if x.Word? && !tok.wantIn && !tok.wantOut then 1 else 0)
    ensures !r.Failed? ==> r.tok.argv[..|tok.argv|] == tok.argv
    ensures r.Full? ==> x.Word? && |r.tok.argv| >= MaxArgs - 1
    ensures r.Scanning? && x.Word? ==> |r.tok.argv| < MaxArgs - 1
  {
    match x
    case RedirIn =>
      if tok.infile.Some? then Failed(AmbiguousRedirection) else Scanning(tok.(wantIn := true))
    case RedirOut =>
      if tok.outfile.Some? then Failed(AmbiguousRedirection) else Scanning(tok.(wantOut := true))
    case Unclosed(q) => Failed(UnmatchedQuote(q))
    case Word(w) =>
      if tok.wantIn && tok.wantOut then Failed(AmbiguousRedirection)
      else
        var recorded :=
          if tok.wantIn then tok.(infile := Some(w))
          else if tok.wantOut then tok.(outfile := Some(w))
          else tok.(argv := tok.argv + [w]);
        var next := recorded.(wantIn := false, wantOut := false);
        if |next.argv| >= MaxArgs - 1 then Full(next) else Scanning(next)
  }

  /** The argument count stays where argv[argc] = NULL is in bounds: below MAXARGS-1 while scanning, at it once full. */
  predicate Bounded(p: Progress) {
    match p
    case Scanning(tok) => |tok.argv| < MaxArgs - 1
    case Full(tok) => |tok.argv| == MaxArgs - 1
    case Failed(_) => true
  }

  /** The loop over all the lexemes of the line; once full or failed, the rest of the line is not looked at. */
  function Run(p: Progress, xs: seq<Lexeme>): (r: Progress)
    ensures Bounded(p) ==> Bounded(r)
    ensures r.Failed? && r.error == NullLine ==> p == r
    ensures !p.Scanning? ==> r == p
    ensures r.Scanning? ==> Closed(xs)
    decreases |xs|
  {
    if |xs| == 0 then p else Run(Step(p, xs[0]), xs[1..])
  }

  /** The state after scanning a whole line from the start. */
  function Scanned(line: string): Progress {
    Run(Scanning(Start), Lex(line))
  }

  /** An argument asks for a background job when its first character is '&'. */
  predicate Background(arg: string) {
    |arg| > 0 && arg[0] == '&'
  }

  /** The builtin named by argv[0], by exact string comparison. */
  function Classify(cmd: string): (b: Builtin)
    ensures b == Quit <==> cmd == "quit"
    ensures b == Jobs <==> cmd == "jobs"
    ensures b == Bg <==> cmd == "bg"
    ensures b == Fg <==> cmd == "fg"
  {
    if cmd == "quit" then Quit
    else if cmd == "jobs" then Jobs
    else if cmd == "bg" then Bg
    else if cmd == "fg" then Fg
    else NoBuiltin
  }

  /**
    After the loop: a dangling redirection is an error; a blank line is a
    background "job" of no arguments; otherwise a last argument starting
    with '&' asks for the background and is dropped.
   */
  function Finish(p: Progress): (r: ParseResult)
    ensures r.Malformed? <==> p.Failed? || p.tok.wantIn || p.tok.wantOut
    ensures p.Failed? ==> r == Malformed(p.error)
    ensures !p.Failed? && (p.tok.wantIn || p.tok.wantOut) ==> r == Malformed(MissingFileName)
    ensures r.Parsed? ==> r.infile == p.tok.infile && r.outfile == p.tok.outfile
    ensures r.Parsed? && |p.tok.argv| == 0 ==> r.argv == [] && r.bg
    ensures r.Parsed? && |p.tok.argv| > 0 ==>
      && r.bg == Background(p.tok.argv[|p.tok.argv| - 1])
      && p.tok.argv == r.argv + (if r.bg then [p.tok.argv[|p.tok.argv| - 1]] else [])
  {
    match p
    case Failed(e) => Malformed(e)
    case _ =>
      var tok := p.tok;
      if tok.wantIn || tok.wantOut then Malformed(MissingFileName)
      else if |tok.argv| == 0 then Parsed([], tok.infile, tok.outfile, NoBuiltin, true)
      else
        var bg := Background(tok.argv[|tok.argv| - 1]);
        Parsed(if bg then tok.argv[..|tok.argv| - 1] else tok.argv,
               tok.infile, tok.outfile, Classify(tok.argv[0]), bg)
  }

  /**
    parseline on a non-NULL line. The argument count leaves room for
    argv's NULL terminator; a parse with no arguments left is a background
    "job" (a blank line, or a lone '&'); the builtin is named by argv[0].
   */
  function Parse(line: string): (r: ParseResult)
    requires CString(line)
    ensures r.Parsed? ==> |r.argv| < MaxArgs - 1 || (|r.argv| == MaxArgs - 1 && !r.bg)
    ensures r.Parsed? && |r.argv| == 0 ==> r.bg && r.builtin == NoBuiltin
    ensures r.Parsed? && |r.argv| > 0 ==> r.builtin == Classify(r.argv[0])
    ensures r.Malformed? ==> r.error != NullLine
  {
    Finish(Scanned(line))
  }

  /** parseline, where the line may be a NULL pointer. */
  function ParseLine(cmdline: Option<string>): (r: ParseResult)
    requires cmdline.Some? ==> CString(cmdline.value)
    ensures r == Malformed(NullLine) <==> cmdline.None?
  {
    match cmdline
    case None => Malformed(NullLine)
    case Some(line) => Parse(line)
  }

  /** parseline's return value. */
  function ReturnCode(r: ParseResult): int {
    match r
    case Malformed(_) => -1
    case Parsed(_, _, _, _, bg) => if bg then 1 else 0
  }

  // ---------------------------------------------------------------------
  // Lemmas
  // ---------------------------------------------------------------------

  lemma {:induction false} RunAppend(p: Progress, xs: seq<Lexeme>, ys: seq<Lexeme>)
    ensures Run(p, xs + ys) == Run(Run(p, xs), ys)
    decreases |xs|
  {
    if |xs| == 0 {
      assert xs + ys == ys;
    } else {
      assert (xs + ys)[1..] == xs[1..] + ys;
      RunAppend(Step(p, xs[0]), xs[1..], ys);
    }
  }

  lemma LexOperator(op: char, b: string)
    requires op == '<' || op == '>'
    ensures Lex([op] + b) == [if op == '<' then RedirIn else RedirOut] + Lex(b)
  {
    var s := [op] + b;
    assert s[0] == op;
    assert SkipDelims(s) == s;
    assert s[1..] == b;
  }

  /** Scanning line a, then a space and more text, is scanning a's lexemes, then the text's. */
  lemma ScannedAppend(a: string, b: string)
    requires Scanned(a).Scanning?
    ensures Closed(Lex(a))
    ensures Scanned(a + " " + b) == Run(Scanned(a), Lex(b))
  {
    LexAppend(a, b);
    RunAppend(Scanning(Start), Lex(a), Lex(b));
  }

  lemma CStringAppend(a: string, b: string)
    requires CString(a) && CString(b)
    ensures CString(a + b)
  {
    forall i | 0 <= i < |a + b|
      ensures (a + b)[i] != '\0'
    {
      if i >= |a| {
        assert (a + b)[i] == b[i - |a|];
      }
    }
  }

  /**
    A second '<' once an input file is recorded, or a second '>' once an
    output file is recorded, makes the line malformed, whatever follows.
   */
  lemma RedirectionTwice(a: string, op: char, b: string)
    requires CString(a) && CString(b)
    requires op == '<' || op == '>'
    requires Scanned(a).Scanning?
    requires op == '<' ==> Scanned(a).tok.infile.Some?
    requires op == '>' ==> Scanned(a).tok.outfile.Some?
    ensures CString(a + " " + [op] + b)
    ensures Parse(a + " " + [op] + b) == Malformed(AmbiguousRedirection)
  {
    CStringAppend(a, " ");
    CStringAppend(a + " ", [op]);
    CStringAppend(a + " " + [op], b);
    assert a + " " + [op] + b == a + " " + ([op] + b);
    ScannedAppend(a, [op] + b);
    LexOperator(op, b);
    var x := if op == '<' then RedirIn else RedirOut;
    assert Step(Scanned(a), x) == Failed(AmbiguousRedirection);
    RunAppend(Scanned(a), [x], Lex(b));
  }

  /**
    A '<' and a '>' both waiting for the same file name (parsing state 3)
    make the line malformed as soon as that file name arrives, however the
    two operators were spelled.
   */
  lemma BothRedirectionsOneFile(a: string, c: string)
    requires CString(a) && CString(c)
    requires Scanned(a).Scanning? && Scanned(a).tok.wantIn && Scanned(a).tok.wantOut
    requires |Lex(c)| > 0 && Lex(c)[0].Word?
    ensures CString(a + " " + c)
    ensures Parse(a + " " + c) == Malformed(AmbiguousRedirection)
  {
    CStringAppend(a, " ");
    CStringAppend(a + " ", c);
    ScannedAppend(a, c);
    RunCons(Scanned(a), Lex(c));
  }

  /** `> <` followed by a file name: '>' first, then '<', reach the same state. */
  lemma GreaterThenLess(a: string, c: string)
    requires CString(a) && CString(c)
    requires Scanned(a).Scanning? && Scanned(a).tok.infile.None? && Scanned(a).tok.outfile.None?
    requires |Lex(c)| > 0 && Lex(c)[0].Word?
    ensures CString(a + " > < " + c)
    ensures Parse(a + " > < " + c) == Malformed(AmbiguousRedirection)
  {
    GreaterLessLine(a, c);
    ScannedGreaterLess(a);
    BothRedirectionsOneFile(a + " " + "> <", c);
  }

  lemma GreaterLessLine(a: string, c: string)
    requires CString(a)
    ensures CString(a + " " + "> <")
    ensures a + " > < " + c == (a + " " + "> <") + " " + c
  {
    assert CString("> <");
    CStringAppend(a, " ");
    CStringAppend(a + " ", "> <");
  }

  /** Scanning `> <` with no file recorded leaves both operators waiting. */
  lemma ScannedGreaterLess(a: string)
    requires Scanned(a).Scanning? && Scanned(a).tok.infile.None? && Scanned(a).tok.outfile.None?
    ensures Scanned(a + " " + "> <").Scanning?
    ensures Scanned(a + " " + "> <").tok.wantIn && Scanned(a + " " + "> <").tok.wantOut
  {
    LexGreaterLess();
    ScannedAppend(a, "> <");
    RunPair(Scanned(a), RedirOut, RedirIn);
  }

  lemma LexGreaterLess()
    ensures Lex("> <") == [RedirOut, RedirIn]
  {
    assert "> <" == ['>'] + " <";
    LexOperator('>', " <");
    SkipOneSpace("<");
    assert "<" == ['<'] + "";
    LexOperator('<', "");
  }

  /** `< >` followed by a file name makes the line malformed. */
  lemma LessThenGreater(a: string, c: string)
    requires CString(a) && CString(c)
    requires Scanned(a).Scanning? && Scanned(a).tok.infile.None? && Scanned(a).tok.outfile.None?
    requires |Lex(c)| > 0 && Lex(c)[0].Word?
    ensures CString(a + " < > " + c)
    ensures Parse(a + " < > " + c) == Malformed(AmbiguousRedirection)
  {
    var rest := ['<'] + (" " + (['>'] + (" " + c)));
    CStringAppend(a, " < > ");
    CStringAppend(a + " < > ", c);
    BothOperatorsLine(a, c);
    ScannedAppend(a, rest);
    LexBothOperators(c);
    RunBothThenWord(Scanned(a), Lex(c));
  }

  lemma BothOperatorsLine(a: string, c: string)
    ensures a + " < > " + c == a + " " + (['<'] + (" " + (['>'] + (" " + c))))
  {
  }

  lemma RunBothThenWord(st: Progress, xs: seq<Lexeme>)
    requires st.Scanning? && st.tok.infile.None? && st.tok.outfile.None?
    requires |xs| > 0 && xs[0].Word?
    ensures Run(st, [RedirIn, RedirOut] + xs) == Failed(AmbiguousRedirection)
  {
    RunAppend(st, [RedirIn, RedirOut], xs);
    RunPair(st, RedirIn, RedirOut);
    var both := Run(st, [RedirIn, RedirOut]);
    assert both == Scanning(st.tok.(wantIn := true, wantOut := true));
    RunCons(both, xs);
  }

  lemma LexBothOperators(c: string)
    ensures Lex(['<'] + (" " + (['>'] + (" " + c)))) == [RedirIn, RedirOut] + Lex(c)
  {
    LexOperatorSpace('<', ['>'] + (" " + c));
    LexOperatorSpace('>', c);
  }

  /** An operator and a space, then more text: the operator's lexeme, then the text's. */
  lemma LexOperatorSpace(op: char, b: string)
    requires op == '<' || op == '>'
    ensures Lex([op] + (" " + b)) == [if op == '<' then RedirIn else RedirOut] + Lex(b)
  {
    LexOperator(op, " " + b);
    SkipOneSpace(b);
  }

  lemma RunPair(p: Progress, x: Lexeme, y: Lexeme)
    ensures Run(p, [x, y]) == Step(Step(p, x), y)
  {
    assert [x, y][1..] == [y];
    assert [y][1..] == [];
    assert Run(p, [x, y]) == Run(Step(p, x), [y]);
    assert Run(Step(p, x), [y]) == Run(Step(Step(p, x), y), []);
  }

  /** A redirection operator with only delimiters after it leaves the line without a file name. */
  lemma RedirectionWithoutFile(a: string, op: char, b: string)
    requires CString(a) && CString(b)
    requires op == '<' || op == '>'
    requires Scanned(a).Scanning?
    requires op == '<' ==> Scanned(a).tok.infile.None?
    requires op == '>' ==> Scanned(a).tok.outfile.None?
    requires forall i :: 0 <= i < |b| ==> IsDelim(b[i])
    ensures CString(a + " " + [op] + b)
    ensures Parse(a + " " + [op] + b) == Malformed(MissingFileName)
  {
    CStringAppend(a, " ");
    CStringAppend(a + " ", [op]);
    CStringAppend(a + " " + [op], b);
    assert a + " " + [op] + b == a + " " + ([op] + b);
    ScannedAppend(a, [op] + b);
    LexOperator(op, b);
    LexBlank(b);
    var x := if op == '<' then RedirIn else RedirOut;
    assert Lex([op] + b) == [x];
    assert [x][1..] == [];
  }

  /** A quote that is never closed makes the line malformed, naming that quote. */
  lemma QuoteNeverClosed(a: string, q: char, w: string)
    requires CString(a) && CString(w)
    requires IsQuote(q) && q !in w
    requires Scanned(a).Scanning?
    ensures CString(a + " " + [q] + w)
    ensures Parse(a + " " + [q] + w) == Malformed(UnmatchedQuote(q))
  {
    CStringAppend(a, " ");
    CStringAppend(a + " ", [q]);
    CStringAppend(a + " " + [q], w);
    assert a + " " + [q] + w == a + " " + ([q] + w);
    ScannedAppend(a, [q] + w);
    UnclosedToken(q, w);
    assert [Unclosed(q)][1..] == [];
  }

  /**
    Repeating an operator while it still waits for its file name changes
    nothing: parseline only ORs the same bit into the parsing state again,
    so "< < f" reads like "< f".
   */
  lemma RepeatedOperator(a: string, op: char, c: string)
    requires CString(a) && CString(c)
    requires op == '<' || op == '>'
    requires Scanned(a).Scanning?
    requires op == '<' ==> Scanned(a).tok.infile.None?
    requires op == '>' ==> Scanned(a).tok.outfile.None?
    ensures CString(a + " " + [op] + " " + [op] + " " + c)
    ensures Parse(a + " " + [op] + " " + [op] + " " + c) == Parse(a + " " + [op] + " " + c)
  {
    var twice := [op] + (" " + ([op] + (" " + c)));
    var once := [op] + (" " + c);
    CStringOperators(a, op, c);
    OperatorLines(a, op, c);
    ScannedAppend(a, twice);
    ScannedAppend(a, once);
    var x := if op == '<' then RedirIn else RedirOut;
    var st := Scanned(a);
    LexOperators(op, c);
    RunAppend(st, [x, x], Lex(c));
    RunAppend(st, [x], Lex(c));
    RunPair(st, x, x);
    RunSingle(st, x);
  }

  lemma OperatorLines(a: string, op: char, c: string)
    ensures a + " " + [op] + " " + [op] + " " + c == a + " " + ([op] + (" " + ([op] + (" " + c))))
    ensures a + " " + [op] + " " + c == a + " " + ([op] + (" " + c))
  {
  }

  lemma CStringOperators(a: string, op: char, c: string)
    requires CString(a) && CString(c) && op != '\0'
    ensures CString(a + " " + [op] + " " + [op] + " " + c)
    ensures CString(a + " " + [op] + " " + c)
  {
    CStringAppend(a, " ");
    CStringAppend(a + " ", [op]);
    CStringAppend(a + " " + [op], " ");
    CStringAppend(a + " " + [op] + " ", [op]);
    CStringAppend(a + " " + [op] + " " + [op], " ");
    CStringAppend(a + " " + [op] + " " + [op] + " ", c);
    CStringAppend(a + " " + [op] + " ", c);
  }

  lemma LexOperators(op: char, c: string)
    requires op == '<' || op == '>'
    ensures var x := if op == '<' then RedirIn else RedirOut;
      && Lex([op] + (" " + ([op] + (" " + c)))) == [x, x] + Lex(c)
      && Lex([op] + (" " + c)) == [x] + Lex(c)
  {
    LexOperatorSpace(op, [op] + (" " + c));
    LexOperatorSpace(op, c);
  }

  lemma RunSingle(p: Progress, x: Lexeme)
    ensures Run(p, [x]) == Step(p, x)
  {
    assert [x][1..] == [];
  }

  /** A quoted '&' is an argument starting with '&' like a bare one, so it too asks for the background. */
  lemma QuotedAmpersand(a: string)
    requires CString(a)
    requires Scanned(a).Scanning?
    ensures CString(a + " '&'") && CString(a + " &")
    ensures Parse(a + " '&'") == Parse(a + " &")
  {
    CStringAppend(a, " '&'");
    CStringAppend(a, " &");
    assert a + " '&'" == a + " " + "'&'";
    assert a + " &" == a + " " + "&";
    ScannedAppend(a, "'&'");
    ScannedAppend(a, "&");
    LexQuotedAmpersand();
  }

  /**
    The last argument of a line decides the background flag: written bare or
    quoted, it asks for the background exactly when it starts with '&', and
    then it is dropped from argv; otherwise it is kept as the last argument.
    The builtin is read from argv[0] before the '&' is dropped.
   */
  lemma LastArgument(a: string, w: string)
    requires CString(a) && Spellable(w)
    requires Scanned(a).Scanning? && !Scanned(a).tok.wantIn && !Scanned(a).tok.wantOut
    ensures CString(a + " " + Render(w))
    ensures var r := Parse(a + " " + Render(w));
      var tok := Scanned(a).tok;
      && r.Parsed?
      && r.bg == Background(w)
      && r.argv == (if Background(w) then tok.argv else tok.argv + [w])
      && r.infile == tok.infile && r.outfile == tok.outfile
      && r.builtin == Classify((tok.argv + [w])[0])
      && ReturnCode(r) == (if Background(w) then 1 else 0)
  {
    CStringLastArgument(a, w);
    ScannedLastArgument(a, w);
    var tok := Scanned(a).tok;
    var argv := tok.argv + [w];
    assert argv[..|argv| - 1] == tok.argv;
  }

  /** `ls &foo` runs `ls` in the background: the '&' argument is dropped whatever follows the '&'. */
  lemma AmpersandWord()
    ensures CString("ls &foo")
    ensures Parse("ls &foo") == Parsed(["ls"], None, None, NoBuiltin, true)
  {
    assert Bare("ls") && Bare("&foo");
    LexRender("ls");
    RunSingle(Scanning(Start), Word("ls"));
    assert "ls" + " " + Render("&foo") == "ls &foo";
    LastArgument("ls", "&foo");
  }

  lemma CStringLastArgument(a: string, w: string)
    requires CString(a) && Spellable(w)
    ensures CString(a + " " + Render(w))
  {
    CStringAppend(a, " ");
    CStringRender(w);
    CStringAppend(a + " ", Render(w));
  }

  /** Scanning the line with one more word records that word as the next argument. */
  lemma ScannedLastArgument(a: string, w: string)
    requires Renderable(w)
    requires Scanned(a).Scanning? && !Scanned(a).tok.wantIn && !Scanned(a).tok.wantOut
    ensures !Scanned(a + " " + Render(w)).Failed?
    ensures Scanned(a + " " + Render(w)).tok == Scanned(a).tok.(argv := Scanned(a).tok.argv + [w])
  {
    ScannedAppend(a, Render(w));
    LexRender(w);
    RunSingle(Scanned(a), Word(w));
  }

  lemma LexQuotedAmpersand()
    ensures Lex("'&'") == Lex("&")
  {
    QuotedToken('\'', "&", "");
    assert ['\''] + "&" + ['\''] + "" == "'&'";
    assert Lex("") == [] by {
      assert SkipDelims("") == "";
    }
    LexSymbols();
  }

  /** A line of delimiters only is a blank line: no arguments, no files, and return value 1. */
  lemma BlankLine(line: string)
    requires CString(line)
    requires forall i :: 0 <= i < |line| ==> IsDelim(line[i])
    ensures Parse(line) == Parsed([], None, None, NoBuiltin, true)
    ensures ReturnCode(Parse(line)) == 1
  {
    LexBlank(line);
  }

  // ---------------------------------------------------------------------
  // Writing a command out and reading it back
  // ---------------------------------------------------------------------

  /** A command in the line grammar: command [arg...] [< infile] [> outfile] [&]. */
  datatype Command = Command(argv: seq<string>, infile: Option<string>, outfile: Option<string>, bg: bool)

  predicate Spellable(w: string) {
    Renderable(w) && CString(w)
  }

  /**
    The commands the grammar can spell so that parseline reads them back:
    every token spellable, something on the line, a last argument that does
    not itself start with '&' unless an '&' follows it, and few enough
    arguments that parseline does not stop before the redirections.
   */
  predicate WellFormed(c: Command) {
    && (forall i :: 0 <= i < |c.argv| ==> Spellable(c.argv[i]))
    && (c.infile.Some? ==> Spellable(c.infile.value))
    && (c.outfile.Some? ==> Spellable(c.outfile.value))
    && (|c.argv| > 0 || c.bg)
    && (!c.bg && |c.argv| > 0 ==> !Background(c.argv[|c.argv| - 1]))
    && Fits(c)
  }

  /** Few enough arguments that parseline does not stop before the redirections or the '&'. */
  predicate Fits(c: Command) {
    && |c.argv| + (if c.bg then 1 else 0) <= MaxArgs - 1
    && ((c.infile.Some? || c.outfile.Some?) ==> |c.argv| < MaxArgs - 1)
  }

  function RenderAll(ws: seq<string>): (r: seq<string>)
    requires forall i :: 0 <= i < |ws| ==> Renderable(ws[i])
    ensures |r| == |ws|
    ensures forall i :: 0 <= i < |ws| ==> r[i] == Render(ws[i])
  {
    if |ws| == 0 then [] else [Render(ws[0])] + RenderAll(ws[1..])
  }

  function RedirPieces(op: string, f: Option<string>): seq<string>
    requires f.Some? ==> Renderable(f.value)
  {
    if f.Some? then [op, Render(f.value)] else []
  }

  function CommandPieces(c: Command): seq<string>
    requires WellFormed(c)
  {
    RenderAll(c.argv) + RedirPieces("<", c.infile) + RedirPieces(">", c.outfile) + (if c.bg then ["&"] else [])
  }

  /** The command written as a line, tokens separated by single spaces. */
  function CommandText(c: Command): string
    requires WellFormed(c)
  {
    Unwords(CommandPieces(c))
  }

  function Words(ws: seq<string>): (r: seq<Lexeme>)
    ensures |r| == |ws|
    ensures forall i :: 0 <= i < |ws| ==> r[i] == Word(ws[i])
  {
    if |ws| == 0 then [] else [Word(ws[0])] + Words(ws[1..])
  }

  function RedirLexemes(x: Lexeme, f: Option<string>): seq<Lexeme> {
    if f.Some? then [x, Word(f.value)] else []
  }

  lemma {:induction false} LexAllAppend(ps: seq<string>, qs: seq<string>)
    ensures LexAll(ps + qs) == LexAll(ps) + LexAll(qs)
    decreases |ps|
  {
    if |ps| == 0 {
      assert ps + qs == qs;
    } else {
      assert (ps + qs)[1..] == ps[1..] + qs;
      LexAllAppend(ps[1..], qs);
    }
  }

  lemma {:induction false} LexAllRenderAll(ws: seq<string>)
    requires forall i :: 0 <= i < |ws| ==> Renderable(ws[i])
    ensures LexAll(RenderAll(ws)) == Words(ws)
    decreases |ws|
  {
    if |ws| > 0 {
      LexRender(ws[0]);
      assert RenderAll(ws)[1..] == RenderAll(ws[1..]);
      LexAllRenderAll(ws[1..]);
    }
  }

  lemma {:induction false} CStringUnwords(ps: seq<string>)
    requires forall i :: 0 <= i < |ps| ==> CString(ps[i])
    ensures CString(Unwords(ps))
    decreases |ps|
  {
    if |ps| > 1 {
      CStringUnwords(ps[1..]);
      CStringAppend(ps[0], " ");
      CStringAppend(ps[0] + " ", Unwords(ps[1..]));
    }
  }

  lemma CStringRender(w: string)
    requires Spellable(w)
    ensures CString(Render(w))
  {
    if !Bare(w) {
      var q := if '\'' !in w then '\'' else '"';
      assert Render(w) == [q] + w + [q];
      CStringAppend([q], w);
      CStringAppend([q] + w, [q]);
    }
  }

  lemma CStringCommandText(c: Command)
    requires WellFormed(c)
    ensures CString(CommandText(c))
  {
    var ps := CommandPieces(c);
    forall k | 0 <= k < |ps|
      ensures CString(ps[k])
    {
      var a := RenderAll(c.argv);
      var i := RedirPieces("<", c.infile);
      var o := RedirPieces(">", c.outfile);
      if k < |a| {
        CStringRender(c.argv[k]);
      } else if k == |a| + 1 && c.infile.Some? {
        CStringRender(c.infile.value);
      } else if k == |a| + |i| + 1 && c.outfile.Some? {
        CStringRender(c.outfile.value);
      }
    }
    CStringUnwords(ps);
  }

  /** Plain words from a scanning state with nothing pending are appended to argv, until argv is full. */
  lemma {:induction false} RunWords(tok: Tokens, ws: seq<string>)
    requires !tok.wantIn && !tok.wantOut
    requires |tok.argv| < MaxArgs - 1
    requires |tok.argv| + |ws| <= MaxArgs - 1
    ensures Run(Scanning(tok), Words(ws)) ==
      if |tok.argv| + |ws| < MaxArgs - 1 then Scanning(tok.(argv := tok.argv + ws))
      else Full(tok.(argv := tok.argv + ws))
    decreases |ws|
  {
    if |ws| == 0 {
      assert tok.argv + ws == tok.argv;
    } else {
      var tok' := tok.(argv := tok.argv + [ws[0]]);
      RunWordsStep(tok, ws);
      if |tok'.argv| < MaxArgs - 1 {
        RunWords(tok', ws[1..]);
      } else {
        assert ws[1..] == [];
      }
    }
  }

  /** The first of the words is appended to argv; the others are left to run. */
  lemma RunWordsStep(tok: Tokens, ws: seq<string>)
    requires !tok.wantIn && !tok.wantOut && |ws| > 0
    ensures var tok' := tok.(argv := tok.argv + [ws[0]]);
      && Run(Scanning(tok), Words(ws)) ==
           Run(if |tok'.argv| < MaxArgs - 1 then Scanning(tok') else Full(tok'), Words(ws[1..]))
      && tok'.(argv := tok'.argv + ws[1..]) == tok.(argv := tok.argv + ws)
  {
    var tok' := tok.(argv := tok.argv + [ws[0]]);
    var xs := Words(ws);
    WordsCons(ws);
    RunCons(Scanning(tok), xs);
    StepWord(tok, ws[0]);
    ArgvAppend(tok, ws);
  }

  lemma ArgvAppend(tok: Tokens, ws: seq<string>)
    requires |ws| > 0
    ensures var tok' := tok.(argv := tok.argv + [ws[0]]);
      tok'.(argv := tok'.argv + ws[1..]) == tok.(argv := tok.argv + ws)
  {
    assert tok.argv + [ws[0]] + ws[1..] == tok.argv + ws;
  }

  lemma WordsCons(ws: seq<string>)
    requires |ws| > 0
    ensures Words(ws)[0] == Word(ws[0]) && Words(ws)[1..] == Words(ws[1..])
  {
  }

  lemma RunCons(p: Progress, xs: seq<Lexeme>)
    requires |xs| > 0
    ensures Run(p, xs) == Run(Step(p, xs[0]), xs[1..])
  {
  }

  /** One plain word, with nothing pending, is appended to argv. */
  lemma StepWord(tok: Tokens, w: string)
    requires !tok.wantIn && !tok.wantOut
    ensures var tok' := tok.(argv := tok.argv + [w]);
      Step(Scanning(tok), Word(w)) == if |tok'.argv| < MaxArgs - 1 then Scanning(tok') else Full(tok')
  {
    var tok' := tok.(argv := tok.argv + [w]);
    assert tok'.(wantIn := false, wantOut := false) == tok';
  }

  /** A redirection and its file name, from a scanning state with nothing pending, record the file. */
  lemma RunRedir(tok: Tokens, x: Lexeme, f: Option<string>)
    requires !tok.wantIn && !tok.wantOut && |tok.argv| < MaxArgs - 1
    requires x == RedirIn ==> tok.infile.None?
    requires x == RedirOut ==> tok.outfile.None?
    requires x == RedirIn || x == RedirOut
    ensures Run(Scanning(tok), RedirLexemes(x, f)) ==
      if f.None? then Scanning(tok)
      else if x == RedirIn then Scanning(tok.(infile := f))
      else Scanning(tok.(outfile := f))
  {
    if f.Some? {
      var pending := if x == RedirIn then tok.(wantIn := true) else tok.(wantOut := true);
      assert Step(Scanning(tok), x) == Scanning(pending);
      RunPair(Scanning(tok), x, Word(f.value));
    }
  }

  lemma LexSingle(p: string)
    ensures LexAll([p]) == Lex(p)
  {
    assert [p][1..] == [];
  }

  lemma LexPair(p: string, q: string)
    ensures LexAll([p, q]) == Lex(p) + Lex(q)
  {
    assert [p, q][1..] == [q];
    LexSingle(q);
  }

  /** The two operators and the '&' each lex to one closed lexeme. */
  lemma LexSymbols()
    ensures Lex("<") == [RedirIn]
    ensures Lex(">") == [RedirOut]
    ensures Lex("&") == [Word("&")]
  {
    assert SkipDelims("") == "";
    LexOperator('<', "");
    assert ['<'] + "" == "<";
    LexOperator('>', "");
    assert ['>'] + "" == ">";
    LexRender("&");
  }

  lemma LexAllRedir(op: string, x: Lexeme, f: Option<string>)
    requires Lex(op) == [x]
    requires f.Some? ==> Renderable(f.value)
    ensures LexAll(RedirPieces(op, f)) == RedirLexemes(x, f)
  {
    if f.Some? {
      LexRender(f.value);
      LexPair(op, Render(f.value));
    }
  }

  /** The lexemes a written command should give: its words, then each redirection, then the '&'. */
  function CommandLexemes(c: Command): seq<Lexeme> {
    Words(c.argv) + RedirLexemes(RedirIn, c.infile) + RedirLexemes(RedirOut, c.outfile)
    + (if c.bg then [Word("&")] else [])
  }

  lemma CommandPiecesClosed(c: Command)
    requires WellFormed(c)
    ensures AllClosed(CommandPieces(c))
  {
    var a := RenderAll(c.argv);
    var i := RedirPieces("<", c.infile);
    var o := RedirPieces(">", c.outfile);
    var amp: seq<string> := if c.bg then ["&"] else [];
    LexSymbols();
    RenderAllClosed(c.argv);
    RedirPiecesClosed("<", RedirIn, c.infile);
    RedirPiecesClosed(">", RedirOut, c.outfile);
    assert AllClosed(amp);
    AllClosedAppend(a, i);
    AllClosedAppend(a + i, o);
    AllClosedAppend(a + i + o, amp);
  }

  lemma AllClosedAppend(ps: seq<string>, qs: seq<string>)
    requires AllClosed(ps) && AllClosed(qs)
    ensures AllClosed(ps + qs)
  {
    forall k | 0 <= k < |ps + qs|
      ensures Closed(Lex((ps + qs)[k]))
    {
      if k >= |ps| {
        assert (ps + qs)[k] == qs[k - |ps|];
      }
    }
  }

  lemma RenderAllClosed(ws: seq<string>)
    requires forall i :: 0 <= i < |ws| ==> Renderable(ws[i])
    ensures AllClosed(RenderAll(ws))
  {
    var ps := RenderAll(ws);
    forall k | 0 <= k < |ps|
      ensures Closed(Lex(ps[k]))
    {
      RenderClosed(ws[k]);
    }
  }

  lemma RenderClosed(w: string)
    requires Renderable(w)
    ensures Closed(Lex(Render(w)))
  {
    LexRender(w);
  }

  lemma RedirPiecesClosed(op: string, x: Lexeme, f: Option<string>)
    requires Lex(op) == [x] && !x.Unclosed?
    requires f.Some? ==> Renderable(f.value)
    ensures AllClosed(RedirPieces(op, f))
  {
    if f.Some? {
      LexRender(f.value);
    }
  }

  lemma LexAllCommandPieces(c: Command)
    requires WellFormed(c)
    ensures LexAll(CommandPieces(c)) == CommandLexemes(c)
  {
    var a := RenderAll(c.argv);
    var i := RedirPieces("<", c.infile);
    var o := RedirPieces(">", c.outfile);
    var amp: seq<string> := if c.bg then ["&"] else [];
    assert CommandPieces(c) == a + i + o + amp;
    LexAllAppend(a + i + o, amp);
    LexAllAppend(a + i, o);
    LexAllAppend(a, i);
    LexAllRenderAll(c.argv);
    LexSymbols();
    LexAllRedir("<", RedirIn, c.infile);
    LexAllRedir(">", RedirOut, c.outfile);
    if c.bg {
      LexSingle("&");
    }
  }

  /** The lexemes of a written command are the ones it should give. */
  lemma LexCommandText(c: Command)
    requires WellFormed(c)
    ensures Lex(CommandText(c)) == CommandLexemes(c)
  {
    CommandPiecesClosed(c);
    LexUnwords(CommandPieces(c));
    LexAllCommandPieces(c);
  }

  /** Running over a command's lexemes records its arguments, the '&', and its files, with nothing pending. */
  lemma RunCommandLexemes(c: Command)
    requires Fits(c)
    ensures var p := Run(Scanning(Start), CommandLexemes(c));
      && !p.Failed?
      && p.tok == Tokens(c.argv + (if c.bg then ["&"] else []), c.infile, c.outfile, false, false)
  {
    var ws := Words(c.argv);
    var tail := Tail(c.infile, c.outfile, c.bg);
    assert CommandLexemes(c) == ws + tail;
    RunAppend(Scanning(Start), ws, tail);
    RunWordsFromStart(c.argv);
    if |c.argv| < MaxArgs - 1 {
      RunTail(Start.(argv := c.argv), c.infile, c.outfile, c.bg);
    } else {
      FullCommand(c);
    }
  }

  /** The words of a line, from the start: argv holds exactly them. */
  lemma RunWordsFromStart(argv: seq<string>)
    requires |argv| <= MaxArgs - 1
    ensures Run(Scanning(Start), Words(argv)) ==
      if |argv| < MaxArgs - 1 then Scanning(Start.(argv := argv)) else Full(Start.(argv := argv))
  {
    RunWords(Start, argv);
    assert Start.argv + argv == argv;
  }

  /** A command whose words fill argv has nothing after them. */
  lemma FullCommand(c: Command)
    requires Fits(c) && |c.argv| == MaxArgs - 1
    ensures Tail(c.infile, c.outfile, c.bg) == []
    ensures c.argv + (if c.bg then ["&"] else []) == c.argv
    ensures Start.(argv := c.argv) == Tokens(c.argv, c.infile, c.outfile, false, false)
  {
    assert !c.bg && c.infile.None? && c.outfile.None?;
    NoTail();
    assert c.argv + [] == c.argv;
  }

  /** The lexemes after the words: the redirections, then the '&'. */
  function Tail(infile: Option<string>, outfile: Option<string>, bg: bool): seq<Lexeme> {
    RedirLexemes(RedirIn, infile) + RedirLexemes(RedirOut, outfile) + (if bg then [Word("&")] else [])
  }

  lemma NoTail()
    ensures Tail(None, None, false) == []
  {
  }

  /** After the words: the redirections record their files and a final '&' is one more argument. */
  lemma RunTail(tok: Tokens, infile: Option<string>, outfile: Option<string>, bg: bool)
    requires !tok.wantIn && !tok.wantOut && tok.infile.None? && tok.outfile.None?
    requires |tok.argv| + (if bg then 1 else 0) <= MaxArgs - 1 && |tok.argv| < MaxArgs - 1
    ensures var p := Run(Scanning(tok), Tail(infile, outfile, bg));
      && !p.Failed?
      && p.tok == tok.(argv := tok.argv + (if bg then ["&"] else []), infile := infile, outfile := outfile)
  {
    var ri := RedirLexemes(RedirIn, infile);
    var ro := RedirLexemes(RedirOut, outfile);
    var amp := if bg then [Word("&")] else [];
    RunAppend(Scanning(tok), ri + ro, amp);
    RunAppend(Scanning(tok), ri, ro);
    var t1 := tok.(infile := infile);
    var t2 := t1.(outfile := outfile);
    RunRedir(tok, RedirIn, infile);
    assert Run(Scanning(tok), ri) == Scanning(t1);
    RunRedir(t1, RedirOut, outfile);
    assert Run(Scanning(t1), ro) == Scanning(t2);
    if bg {
      assert Words(["&"]) == amp;
      RunWords(t2, ["&"]);
    } else {
      assert Run(Scanning(t2), amp) == Scanning(t2);
    }
  }

  /**
    Writing a well-formed command out and parsing the line gives the command
    back: the same arguments (quoted ones with their white space), the same
    files, the background flag, and the builtin named by the first argument.
   */
  lemma ParseCommandText(c: Command)
    requires WellFormed(c)
    ensures CString(CommandText(c))
    ensures Parse(CommandText(c)) ==
      Parsed(c.argv, c.infile, c.outfile, if |c.argv| > 0 then Classify(c.argv[0]) else NoBuiltin, c.bg)
    ensures ReturnCode(Parse(CommandText(c))) == if c.bg then 1 else 0
  {
    var line := CommandText(c);
    var p := Run(Scanning(Start), CommandLexemes(c));
    ScannedCommandText(c);
    RunCommandLexemes(c);
    FinishCommand(c, p);
  }

  /** The written command is a C string whose scan runs over the command's lexemes. */
  lemma ScannedCommandText(c: Command)
    requires WellFormed(c)
    ensures CString(CommandText(c))
    ensures Scanned(CommandText(c)) == Run(Scanning(Start), CommandLexemes(c))
  {
    CStringCommandText(c);
    LexCommandText(c);
  }

  /** The end of the line turns the recorded tokens back into the command. */
  lemma FinishCommand(c: Command, p: Progress)
    requires |c.argv| > 0 || c.bg
    requires !c.bg && |c.argv| > 0 ==> !Background(c.argv[|c.argv| - 1])
    requires !p.Failed?
    requires p.tok == Tokens(c.argv + (if c.bg then ["&"] else []), c.infile, c.outfile, false, false)
    ensures Finish(p) ==
      Parsed(c.argv, c.infile, c.outfile, if |c.argv| > 0 then Classify(c.argv[0]) else NoBuiltin, c.bg)
  {
    var argv := p.tok.argv;
    FinishArguments(p);
    if c.bg {
      AmpersandLast(c.argv);
    } else {
      assert argv == c.argv + [] == c.argv;
    }
  }

  /** Finish when nothing is pending and there is at least one argument. */
  lemma FinishArguments(p: Progress)
    requires !p.Failed? && !p.tok.wantIn && !p.tok.wantOut && |p.tok.argv| > 0
    ensures var a := p.tok.argv;
      var bg := Background(a[|a| - 1]);
      Finish(p) == Parsed(if bg then a[..|a| - 1] else a, p.tok.infile, p.tok.outfile, Classify(a[0]), bg)
  {
  }

  /** An '&' appended as the last argument asks for the background and is dropped again. */
  lemma AmpersandLast(argv: seq<string>)
    ensures var a := argv + ["&"];
      && Background(a[|a| - 1])
      && a[..|a| - 1] == argv
      && Classify(a[0]) == if |argv| > 0 then Classify(argv[0]) else NoBuiltin
  {
    var a := argv + ["&"];
    assert a[|a| - 1] == "&";
    assert a[..|a| - 1] == argv;
    if |argv| == 0 {
      assert a[0] == "&";
      ClassifyAmpersand();
    } else {
      assert a[0] == argv[0];
    }
  }

  lemma ClassifyAmpersand()
    ensures Classify("&") == NoBuiltin
  {
    assert |"&"| == 1;
  }

  // ---------------------------------------------------------------------
  // Parsing, printing and parsing again
  // ---------------------------------------------------------------------

  /** The command a successful parse describes. */
  function ParsedCommand(r: ParseResult): Command
    requires r.Parsed?
  {
    Command(r.argv, r.infile, r.outfile, r.bg)
  }

  /**
    A parsed line, written back out, parses to the same result, provided its
    command fits: a line whose scan did not fill argv always does, and so
    does a full one without redirections. A full line whose redirections
    came before its last argument would have them written after the
    127th argument, where parseline no longer looks.
   */
  lemma ParsePrintParse(line: string)
    requires CString(line)
    requires Parse(line).Parsed?
    ensures Scanned(line).Scanning? ==> Fits(ParsedCommand(Parse(line)))
    ensures Parse(line).infile.None? && Parse(line).outfile.None? ==> Fits(ParsedCommand(Parse(line)))
    ensures var c := ParsedCommand(Parse(line));
      Fits(c) ==> WellFormed(c) && CString(CommandText(c)) && Parse(CommandText(c)) == Parse(line)
  {
    var r := Parse(line);
    var c := ParsedCommand(r);
    var p := Scanned(line);
    LexWords(line);
    RunSpellable(Scanning(Start), Lex(line));
    ParsedShape(p);
    ParsedSpellable(p);
    if Fits(c) {
      ParseCommandText(c);
    }
  }

  /** What Finish makes of a scan that did not fail: well-formed apart from spelling and fitting, and the builtin of its argv. */
  lemma ParsedShape(p: Progress)
    requires !p.Failed? && Finish(p).Parsed? && Bounded(p)
    ensures var r := Finish(p); var c := Command(r.argv, r.infile, r.outfile, r.bg);
      && (|c.argv| > 0 || c.bg)
      && (!c.bg && |c.argv| > 0 ==> !Background(c.argv[|c.argv| - 1]))
      && (p.Scanning? ==> Fits(c))
      && (c.infile.None? && c.outfile.None? ==> Fits(c))
      && r.builtin == if |c.argv| > 0 then Classify(c.argv[0]) else NoBuiltin
  {
    var a := p.tok.argv;
    if |a| == 1 && Background(a[0]) {
      ClassifyAmpersandWord(a[0]);
    }
  }

  /** The arguments and files Finish hands back are among those recorded, so they can be spelled again. */
  lemma ParsedSpellable(p: Progress)
    requires !p.Failed? && Finish(p).Parsed? && TokensSpellable(p.tok)
    ensures var r := Finish(p);
      && (forall i :: 0 <= i < |r.argv| ==> Spellable(r.argv[i]))
      && (r.infile.Some? ==> Spellable(r.infile.value))
      && (r.outfile.Some? ==> Spellable(r.outfile.value))
  {
    var r := Finish(p);
    if |p.tok.argv| > 0 {
      forall i | 0 <= i < |r.argv|
        ensures Spellable(r.argv[i])
      {
        assert r.argv[i] == p.tok.argv[i];
      }
    }
  }

  /** An argument that starts with '&' names no builtin. */
  lemma ClassifyAmpersandWord(w: string)
    requires Background(w)
    ensures Classify(w) == NoBuiltin
  {
    assert w != "quit" && w != "jobs" && w != "bg" && w != "fg" by {
      assert w[0] == '&';
    }
  }

  /** Every argument and file recorded so far can be spelled again. */
  predicate TokensSpellable(tok: Tokens) {
    && (forall i :: 0 <= i < |tok.argv| ==> Spellable(tok.argv[i]))
    && (tok.infile.Some? ==> Spellable(tok.infile.value))
    && (tok.outfile.Some? ==> Spellable(tok.outfile.value))
  }

  predicate WordsSpellable(xs: seq<Lexeme>) {
    forall i :: 0 <= i < |xs| && xs[i].Word? ==> Spellable(xs[i].text)
  }

  /** Scanning spellable words records only spellable arguments and files. */
  lemma {:induction false} RunSpellable(p: Progress, xs: seq<Lexeme>)
    requires WordsSpellable(xs)
    requires !p.Failed? ==> TokensSpellable(p.tok)
    ensures !Run(p, xs).Failed? ==> TokensSpellable(Run(p, xs).tok)
    decreases |xs|
  {
    if |xs| > 0 {
      assert xs[0].Word? ==> Spellable(xs[0].text);
      assert WordsSpellable(xs[1..]) by {
        forall i | 0 <= i < |xs[1..]| && xs[1..][i].Word?
          ensures Spellable(xs[1..][i].text)
        {
          assert xs[1..][i] == xs[i + 1];
        }
      }
      RunSpellable(Step(p, xs[0]), xs[1..]);
    }
  }
}

=== FILE: transpose.dfy ===
/**
  The matrix transposes of the cache lab (trans.c). A is N rows by M
  columns and B is M rows by N columns. The blocked versions walk A block
  by block, and within one row of a block they hold back a few elements
  (the diagonal one, and in the 64-column version two more) and write them
  only after the row's other elements. The result is still B = A transposed.
  Cache behaviour, the reason for the blocking, is not modelled.
 */
module Transpose {

  /** The shapes A[N][M] and B[M][N]. */
  predicate Shaped(M: int, N: int, A: array2<int>, B: array2<int>) {
    A.Length0 == N && A.Length1 == M && B.Length0 == M && B.Length1 == N
  }

  /** B is the transpose of A. */
  predicate IsTransposeOf(A: array2<int>, B: array2<int>)
    reads A, B
  {
    && B.Length0 == A.Length1 && B.Length1 == A.Length0
    && forall k, l :: 0 <= k < A.Length0 && 0 <= l < A.Length1 ==> B[l, k] == A[k, l]
  }

  /** is_transpose: 1 when every A[i][j] equals B[j][i], else 0 at the first mismatch. */
  method IsTranspose(M: int, N: int, A: array2<int>, B: array2<int>) returns (r: int)
    requires Shaped(M, N, A, B)
    ensures r == 0 || r == 1
    ensures r == 1 <==> IsTransposeOf(A, B)
  {
    var i := 0;
    while i < N
      invariant 0 <= i <= N
      invariant forall k, l :: 0 <= k < i && 0 <= l < M ==> B[l, k] == A[k, l]
    {
      var j := 0;
      while j < M
        invariant 0 <= j <= M
        invariant forall l :: 0 <= l < j ==> B[l, i] == A[i, l]
      {
        if A[i, j] != B[j, i] {
          return 0;
        }
        j := j + 1;
      }
      i := i + 1;
    }
    return 1;
  }

  /** The plain double loop: row by row, B[j][i] = A[i][j]. */
  method TransposeSimple(M: int, N: int, A: array2<int>, B: array2<int>)
    requires Shaped(M, N, A, B) && A != B
    modifies B
    ensures IsTransposeOf(A, B)
  {
    var i := 0;
    while i < N
      invariant 0 <= i <= N
      invariant forall k, l :: 0 <= k < i && 0 <= l < M ==> B[l, k] == A[k, l]
    {
      var j := 0;
      while j < M
        invariant 0 <= j <= M
        invariant forall k, l :: 0 <= k < i && 0 <= l < M ==> B[l, k] == A[k, l]
        invariant forall l :: 0 <= l < j ==> B[l, i] == A[i, l]
      {
        B[j, i] := A[i, j];
        j := j + 1;
      }
      i := i + 1;
    }
  }

  /**
    One row of one block, columns j to j+bs-1 of row k: every element is
    written to B at once except the diagonal one, which is kept and written
    after the loop. Only column k of B, in rows j to j+bs-1, changes.
   */
  method DeferDiagonalRow(A: array2<int>, B: array2<int>, k: int, j: int, bs: int)
    requires A != B && B.Length0 == A.Length1 && B.Length1 == A.Length0
    requires 0 <= k < A.Length0 && 0 <= j && j + bs <= A.Length1
    modifies B
    ensures forall l :: j <= l < j + bs ==> B[l, k] == A[k, l]
    ensures forall p, q :: 0 <= p < B.Length0 && 0 <= q < B.Length1 && !(q == k && j <= p < j + bs) ==>
      B[p, q] == old(B[p, q])
  {
    var flag := false;
    var diagonal := 0;
    var diagonalIndex := 0;
    var l := j;
    while l < j + bs
      invariant j <= l <= j + bs || (bs < 0 && l == j)
      invariant forall l' :: j <= l' < l && l' != k ==> B[l', k] == A[k, l']
      invariant flag <==> j <= k < l
      invariant flag ==> diagonal == A[k, k] && diagonalIndex == k
      invariant forall p, q :: 0 <= p < B.Length0 && 0 <= q < B.Length1 && !(q == k && j <= p < l && p != k) ==>
        B[p, q] == old(B[p, q])
    {
      if k == l {
        diagonal := A[k, l];
        diagonalIndex := k;
        flag := true;
      } else {
        B[l, k] := A[k, l];
      }
      l := l + 1;
    }
    if flag {
      B[diagonalIndex, diagonalIndex] := diagonal;
    }
  }

  /** The elements the 64-column version holds back: the diagonal one, column 0 of a row divisible by 4, and row 0 at a column divisible by 4. */
  predicate HeldBack(k: int, l: int) {
    k == l || (k % 4 == 0 && l == 0) || (l % 4 == 0 && k == 0)
  }

  /**
    One row of one 4-wide block of the 64-column version. Of the three
    held-back elements at most one occurs in a row, so the else-if chain
    after the loop writes each of them.
   */
  method DeferThreeRow(A: array2<int>, B: array2<int>, k: int, j: int)
    requires A != B && B.Length0 == A.Length1 && B.Length1 == A.Length0
    requires 0 <= k < A.Length0 && 0 <= j && j % 4 == 0 && j + 4 <= A.Length1
    modifies B
    ensures forall l :: j <= l < j + 4 ==> B[l, k] == A[k, l]
    ensures forall p, q :: 0 <= p < B.Length0 && 0 <= q < B.Length1 && !(q == k && j <= p < j + 4) ==>
      B[p, q] == old(B[p, q])
  {
    var flag, flag2, flag3 := false, false, false;
    var diagonal, diagonalIndex := 0, 0;
    var multiple, multipleIndex := 0, 0;
    var l := j;
    while l < j + 4
      invariant j <= l <= j + 4
      invariant forall l' :: j <= l' < l && !HeldBack(k, l') ==> B[l', k] == A[k, l']
      invariant flag <==> j <= k < l
      invariant flag ==> diagonal == A[k, k] && diagonalIndex == k
      invariant flag2 <==> j == 0 && 0 < l && k % 4 == 0 && k != 0
      invariant flag2 ==> multiple == A[k, 0] && multipleIndex == k
      invariant flag3 <==> k == 0 && j != 0 && j < l
      invariant flag3 ==> multiple == A[0, j] && multipleIndex == j
      invariant forall p, q :: 0 <= p < B.Length0 && 0 <= q < B.Length1 && !(q == k && j <= p < l && !HeldBack(k, p)) ==>
        B[p, q] == old(B[p, q])
    {
      if k == l {
        diagonal := A[k, l];
        diagonalIndex := k;
        flag := true;
      } else if k % 4 == 0 && l == 0 {
        multiple := A[k, l];
        multipleIndex := k;
        flag2 := true;
      } else if l % 4 == 0 && k == 0 {
        multiple := A[k, l];
        multipleIndex := l;
        flag3 := true;
      } else {
        B[l, k] := A[k, l];
      }
      l := l + 1;
    }
    assert forall l' :: j <= l' < j + 4 && HeldBack(k, l') ==>
      (l' == k && flag) || (l' == 0 && flag2) || (l' == j && flag3);
    if flag {
      B[diagonalIndex, diagonalIndex] := diagonal;
    } else if flag2 {
      B[0, multipleIndex] := multiple;
    } else if flag3 {
      B[multipleIndex, 0] := multiple;
    }
  }

  /** A multiple of bs below a multiple of bs leaves room for a whole block. */
  lemma BlockFits(a: int, n: int, bs: int)
    requires bs > 0 && 0 <= bs * a < n && n % bs == 0
    ensures bs * a + bs <= n
  {
    var b := n / bs;
    assert n == bs * b;
    var d := b - a;
    assert bs * d == n - bs * a;
    MulPositive(bs, d);
    MulAtLeast(bs, d);
  }

  lemma MulPositive(bs: int, d: int)
    requires bs > 0 && bs * d > 0
    ensures d >= 1
  {
  }

  lemma MulAtLeast(bs: int, d: int)
    requires bs > 0 && d >= 1
    ensures bs * d >= bs
  {
    assert bs * d == bs * (d - 1) + bs;
  }

  /** One block of RowBlocks: rows i to i+bs-1 of A, columns j to j+bs-1, a row at a time. */
  method RowBlock(A: array2<int>, B: array2<int>, i: int, j: int, bs: int)
    requires A != B && B.Length0 == A.Length1 && B.Length1 == A.Length0
    requires bs > 0 && 0 <= i && i + bs <= A.Length0 && 0 <= j && j + bs <= A.Length1
    modifies B
    ensures forall k, l :: i <= k < i + bs && j <= l < j + bs ==> B[l, k] == A[k, l]
    ensures forall p, q :: 0 <= p < B.Length0 && 0 <= q < B.Length1 && !(i <= q < i + bs && j <= p < j + bs) ==>
      B[p, q] == old(B[p, q])
  {
    var k := i;
    while k < i + bs
      invariant i <= k <= i + bs
      invariant forall k', l :: i <= k' < k && j <= l < j + bs ==> B[l, k'] == A[k', l]
      invariant forall p, q :: 0 <= p < B.Length0 && 0 <= q < B.Length1 && !(i <= q < k && j <= p < j + bs) ==>
        B[p, q] == old(B[p, q])
    {
      DeferDiagonalRow(A, B, k, j, bs);
      k := k + 1;
    }
  }

  /**
    Blocks of bs by bs, row blocks outer and column blocks inner, each row
    of a block written by DeferDiagonalRow: the 32-column branch of
    transpose_submit and both blocked branches of trans_1.
   */
  method RowBlocks(A: array2<int>, B: array2<int>, bs: int)
    requires A != B && B.Length0 == A.Length1 && B.Length1 == A.Length0
    requires bs > 0 && A.Length0 % bs == 0 && A.Length1 % bs == 0
    modifies B
    ensures IsTransposeOf(A, B)
  {
    var rows, cols := A.Length0, A.Length1;
    var i := 0;
    ghost var bi := 0;
    while i < rows
      invariant 0 <= i <= rows && i == bs * bi
      invariant forall k, l :: 0 <= k < i && 0 <= l < cols ==> B[l, k] == A[k, l]
    {
      BlockFits(bi, rows, bs);
      var j := 0;
      ghost var bj := 0;
      while j < cols
        invariant 0 <= j <= cols && j == bs * bj
        invariant forall k, l :: 0 <= k < i && 0 <= l < cols ==> B[l, k] == A[k, l]
        invariant forall k, l :: i <= k < i + bs && 0 <= l < j ==> B[l, k] == A[k, l]
      {
        BlockFits(bj, cols, bs);
        RowBlock(A, B, i, j, bs);
        j := j + bs;
        bj := bj + 1;
      }
      i := i + bs;
      bi := bi + 1;
    }
  }

  /**
    The 64-column branch of transpose_submit: 4 by 4 blocks, column blocks
    outer and row blocks inner, each row of a block written by DeferThreeRow.
   */
  method ColumnBlocks(A: array2<int>, B: array2<int>)
    requires A != B && B.Length0 == A.Length1 && B.Length1 == A.Length0
    requires A.Length0 % 4 == 0 && A.Length1 % 4 == 0
    modifies B
    ensures IsTransposeOf(A, B)
  {
    var rows, cols := A.Length0, A.Length1;
    var j := 0;
    while j < cols
      invariant 0 <= j <= cols && j % 4 == 0
      invariant forall k, l :: 0 <= k < rows && 0 <= l < j ==> B[l, k] == A[k, l]
    {
      BlockFits(j / 4, cols, 4);
      var i := 0;
      while i < rows
        invariant 0 <= i <= rows && i % 4 == 0
        invariant forall k, l :: 0 <= k < rows && 0 <= l < j ==> B[l, k] == A[k, l]
        invariant forall k, l :: 0 <= k < i && j <= l < j + 4 ==> B[l, k] == A[k, l]
      {
        BlockFits(i / 4, rows, 4);
        var k := i;
        while k < i + 4
          invariant i <= k <= i + 4
          invariant forall k', l :: 0 <= k' < rows && 0 <= l < j ==> B[l, k'] == A[k', l]
          invariant forall k', l :: 0 <= k' < k && j <= l < j + 4 ==> B[l, k'] == A[k', l]
        {
          DeferThreeRow(A, B, k, j);
          k := k + 1;
        }
        i := i + 4;
      }
      j := j + 4;
    }
  }

  /**
    transpose_submit. The blocked branches index A's rows with bounds on M
    and its columns with bounds on N, so they stay in bounds, and transpose,
    only for square matrices; the other sizes take the plain double loop.
   */
  method TransposeSubmit(M: int, N: int, A: array2<int>, B: array2<int>)
    requires M > 0 && N > 0
    requires Shaped(M, N, A, B) && A != B
    requires M == 32 ==> N == 32
    requires M == 64 ==> N == 64
    modifies B
    ensures IsTransposeOf(A, B)
  {
    if M == 32 {
      RowBlocks(A, B, 8);
    } else if M == 64 {
      ColumnBlocks(A, B);
    } else {
      TransposeSimple(M, N, A, B);
    }
  }

  /**
    trans_1: 8 by 8 blocks when M is 32, 4 by 4 when M is 64, the plain
    double loop otherwise. Its blocked loops are bounded by N for rows and M
    for columns, so only the number of rows has to be a multiple of the block.
   */
  method Trans1(M: int, N: int, A: array2<int>, B: array2<int>)
    requires M > 0 && N > 0
    requires Shaped(M, N, A, B) && A != B
    requires M == 32 ==> N % 8 == 0
    requires M == 64 ==> N % 4 == 0
    modifies B
    ensures IsTransposeOf(A, B)
  {
    if M == 32 || M == 64 {
      var bs := if M == 32 then 8 else 4;
      RowBlocks(A, B, bs);
    } else {
      TransposeSimple(M, N, A, B);
    }
  }
}

=== FILE: wrappers.dfy ===
/** The optional value used for parseline's NULL pointers and the job lookups' not-found results. */
module Wrappers {

  datatype Option<+T> = None | Some(value: T)
}
